=== FILE: README.md ===
# App Insights — a Dafny model of its core

App Insights is an iOS app that shows, for apps in the App Store, what their
reviews say. It shows the keywords reviewers use, with sentiment counts. It
also shows a letter grade for the overall sentiment, a star rating and
low-rated reviews with positive text. The app reads its app list from a
Cloudant database. It reads the review analysis from the Watson Discovery
service. A set of Python scripts scrapes store pages and builds the app
documents. That includes the description, the rating, the app id and the top
keyword that is not part of the app's name or category.

This project models the data-handling core of both halves, as pure functions
and small methods over immutable values:

| module | file | models |
|---|---|---|
| `Wrappers` | wrappers.dfy | `Option`, `Outcome` (a value or a Swift runtime trap), `MapPresent` (filter-map) |
| `Text` | text.dfy | ASCII lowercasing; `range(of:)` and Python `in`; `components(separatedBy:)` / `split(sep)`; Python `split()`; `lstrip()` |
| `Numbers` | numbers.dfy | decimal and hexadecimal digits; Swift `Int(String)`; Python `int()`; `Scanner.scanHexInt64` |
| `Json` | json.dfy | a small JSON value with the SwiftyJSON accessors the app uses |
| `KeywordModel` | keyword.dfy | `Keyword` and its three `Sentiment` counts; `addSentiments` |
| `Consolidator` | consolidator.dfy | `removeSimilarKeywords`, `containsWord`, `foundMatchingKeyword` |
| `Grades` | grades.dfy | the `Grade` enum, the letter-score rule, the star-image rule |
| `AppModel` | app.dfy | `App(json:)` |
| `Color` | color.dfy | `UIColor(hex:alpha:)` |
| `Cloudant` | cloudant.dfy | `CloudantRouter.params`, `Cloudant` init, `requestCloudant`, `authorize`, `CloudantManager.fetchApps` |
| `Discovery` | discovery.dfy | `DiscoveryErrors.errorMessage` and the decoding loops of the four `DiscoveryManager` queries |
| `Scripts` | scripts.dfy | `to_ascii`, `clean_description`, `extract_rating`, `clean_keywords`, `query_for_top_keywords`, `extract_id` |

Asynchronous callbacks are modelled as the list of callback events in the
order they fire: `Success(value)` or `Failure(error)`. A Swift runtime trap is
the `Trapped` outcome. One case is `Array.remove(at:)` with an index past the
end. Another is force-unwrapping the unset `CloudantRouter.baseURL`. A Python
exception is the `Raise` result of the `Raised` type.

Consolidation in `removeSimilarKeywords` copies the keyword list for every
keyword. It then removes the entries equal to the current keyword while it
enumerates the original indices, so every removal after the first uses a
stale index. The model follows the code. The property "the current keyword
and all its duplicates are removed" holds only when keyword texts are
distinct. With a trailing duplicate the removal traps
(`CheckSimilarTrapsOnTrailingDuplicate`). Otherwise it can remove a different
entry and keep the current one (`CheckSimilarKeepsCurrentOnDuplicate`). The
full consolidation result is proved for distinct keyword texts. Provenance,
length and absence of noise words are proved for every input it returns on.

## Model

| member | source | states |
|---|---|---|
| KeywordModel.AddSentiments | app-insights-iOS/app-insights/Keyword.swift:32-36 | each of the three counts becomes the sum of both keywords' counts, so totals add; the keyword text and the three sentiment labels are unchanged; adding zero counts changes nothing; adding non-negative counts never lowers one |
| KeywordModel.MergeOrderIrrelevant | app-insights-iOS/app-insights/Keyword.swift:32-36 | merging two keywords into a third gives the same result in either order |
| Consolidator.ContainsWordIff | app-insights-iOS/app-insights/KeywordsTableViewController.swift:163-173 | two words are similar exactly when both are non-empty and one occurs, case-insensitively, inside the other; similarity is symmetric |
| Consolidator.NoiseVocabulary | app-insights-iOS/app-insights/KeywordsTableViewController.swift:118-121 | a word is in the vocabulary exactly when it is a space-separated part of the app name or of the category, or the common keyword "app", which comes last |
| Consolidator.FoundMatchingKeyword | app-insights-iOS/app-insights/KeywordsTableViewController.swift:182-189 | nothing is found exactly when no keyword is similar to the word; otherwise the result is the first similar keyword in list order |
| Consolidator.RemoveAtStaleIndices | app-insights-iOS/app-insights/KeywordsTableViewController.swift:124-129 | when the stale-index removal does not trap, it only removes entries, exactly one per remaining equal entry of the snapshot |
| Consolidator.StaleRemovalNoMoreMatches | app-insights-iOS/app-insights/KeywordsTableViewController.swift:124-129 | once no equal entry remains in the snapshot, the copy is left as it is |
| Consolidator.CheckSimilarWhenDistinct | app-insights-iOS/app-insights/KeywordsTableViewController.swift:124-129 | with distinct keyword texts, the check list is the input with only the current keyword removed |
| Consolidator.CheckSimilarOfAbsentText | app-insights-iOS/app-insights/KeywordsTableViewController.swift:124-129 | a text that no entry has leaves the check list equal to the input |
| Consolidator.CheckSimilarTrapsOnTrailingDuplicate | app-insights-iOS/app-insights/KeywordsTableViewController.swift:124-129 | two entries with the same text make the second removal index out of range, so the app traps |
| Consolidator.CheckSimilarKeepsCurrentOnDuplicate | app-insights-iOS/app-insights/KeywordsTableViewController.swift:124-129 | with a duplicate first pair, the stale second index removes the unrelated third entry and leaves one copy of the current keyword in its own check list |
| Consolidator.MergedWithFirstRelatedOther | app-insights-iOS/app-insights/KeywordsTableViewController.swift:144-149 | with distinct texts, an entry keeps its text; if it matches another entry, its counts become its own plus those of the first other similar entry; otherwise they stay its own |
| Consolidator.AbsorbedNeverShown | app-insights-iOS/app-insights/KeywordsTableViewController.swift:139-149 | a keyword that an earlier entry absorbed is never displayed |
| Consolidator.NoiseNeverShown | app-insights-iOS/app-insights/KeywordsTableViewController.swift:130-136 | a keyword similar to a word of the app name, the category or "app" is never displayed |
| Consolidator.ConsolidatedMembers | app-insights-iOS/app-insights/KeywordsTableViewController.swift:123-152 | the reference consolidation shows at most one keyword per input entry and only merges of input entries |
| Consolidator.FoundSimilarWord | app-insights-iOS/app-insights/KeywordsTableViewController.swift:130-136 | the scan over the app words reports a hit exactly when the keyword is similar to one of them |
| Consolidator.VisitKeyword | app-insights-iOS/app-insights/KeywordsTableViewController.swift:123-152 | one loop iteration traps only on duplicate texts; a shown keyword is never noise and carries its own counts or its own plus one entry's; with distinct texts it shows the merged keyword exactly when the keyword is neither noise nor already absorbed, and records the absorbed match |
| Consolidator.RemoveSimilarKeywords | app-insights-iOS/app-insights/KeywordsTableViewController.swift:109-155 | without a category nothing is displayed; with distinct texts the display is the reference consolidation; any display it returns is no longer than the input, every entry in it is an input entry (possibly merged with another), and no entry is a noise word |
| Grades.FromRawValue | app-insights-iOS/app-insights/App.swift:71-80 | a raw string decodes only to the grade whose raw value it is |
| Grades.RawValueRoundTrip | app-insights-iOS/app-insights/App.swift:71-80 | decoding a grade's raw value gives back the grade |
| Grades.LetterScore | app-insights-iOS/app-insights/Utils.swift:53-61 | each grade is given exactly on its half-open band of sentiment; no grade exactly outside [-1, 1] |
| Grades.LetterScoreMonotone | app-insights-iOS/app-insights/Utils.swift:53-61 | within [-1, 1] a higher sentiment never gives a lower grade, and never no grade |
| Grades.DocumentedRangesPartition | app-insights-iOS/app-insights/App.swift:61-69 | the documented grade ranges do not overlap |
| Grades.DocumentedRangesCover | app-insights-iOS/app-insights/App.swift:61-69 | the documented ranges together cover exactly [-1, 1] |
| Grades.LetterScoreMatchesDocumentation | app-insights-iOS/app-insights/Utils.swift:53-61 | the letter-score rule gives a grade exactly when the sentiment lies in that grade's documented range |
| Grades.StarImages | app-insights-iOS/app-insights/Utils.swift:27-47 | images are set only on the leading image views and stop at the first other view; a star is full exactly below the floor of the rating and half exactly at the floor when the rating has a fraction |
| Grades.StarsShowRoundedRating | app-insights-iOS/app-insights/Utils.swift:27-47 | with enough image views the stars show the rating rounded down to a half: floor full stars and one half star when there is a fraction |
| AppModel.DecodeApp | app-insights-iOS/app-insights/App.swift:33-58 | an app is built exactly when every member is present with its type and the image URL parses; each field is copied from its JSON member, with the renamings image, total_reviews, keyword, turnarounds and sentiment |
| AppModel.DecodeEncode | app-insights-iOS/app-insights/App.swift:33-58 | an app written as its JSON document decodes back to itself |
| AppModel.DecodeIgnoresOtherKeys | app-insights-iOS/app-insights/App.swift:33-58 | extra members in the document do not change the result |
| AppModel.DecodeRejectsMissingMember | app-insights-iOS/app-insights/App.swift:34-47 | a document missing any one member yields no app |
| Color.ColorFromHex | app-insights-iOS/app-insights/UIColorExtension.swift:51-85 | alpha passes through; every channel is within [0, 1]; a string that does not scan as hex or whose length (without "#") is neither 3 nor 6 gives black |
| Color.HashIsOptional | app-insights-iOS/app-insights/UIColorExtension.swift:58-64 | one leading "#" is ignored; a second one makes the scan fail and gives black |
| Color.ColorOfHex6 | app-insights-iOS/app-insights/UIColorExtension.swift:74-77 | for any six hex digits, upper or lower case, "#RRGGBB" gives the channels RR/255, GG/255, BB/255 |
| Color.ColorOfHex3 | app-insights-iOS/app-insights/UIColorExtension.swift:70-73 | for any three hex digits, upper or lower case, "RGB" gives the channels R/15, G/15, B/15 |
| Color.WhiteOfUpperCase | app-insights-iOS/app-insights/AppListTableViewCell.swift:135-164 | the app's own upper-case "FFFFFF" without a hash is white at the alpha it is given |
| Color.TrailingJunkStillSizedByLength | app-insights-iOS/app-insights/UIColorExtension.swift:66-79 | the scan stops at a non-hex character but the format is still chosen by length: "12g" reads as the three-digit colour of 0x12 |
| Cloudant.BaseURL | app-insights-iOS/app-insights/Cloudant.swift:28 | the base URL is the https URL of the account's host under cloudant.com |
| Cloudant.BaseURLRoundTrip | app-insights-iOS/app-insights/Cloudant.swift:28 | the account name can be read back from the base URL |
| Cloudant.Init | app-insights-iOS/app-insights/Cloudant.swift:26-29 | initialising sets the router's base URL to the account's URL |
| Cloudant.Params | app-insights-iOS/app-insights/CloudantRouter.swift:26-38 | a request is formed exactly when the base URL is set (otherwise the force-unwrap traps); it is a GET whose path starts with the base URL |
| Cloudant.ParamsRoundTrip | app-insights-iOS/app-insights/CloudantRouter.swift:26-38 | the route can be read back from the request path, so different routes give different paths |
| Cloudant.ParamsAfterInit | app-insights-iOS/app-insights/Cloudant.swift:26-29 | after initialisation every route forms a request under the account's base URL |
| Cloudant.RequestCloudant | app-insights-iOS/app-insights/Cloudant.swift:54-71 | a transport error is reported as a failure with its description; no data and no error fires nothing; a body that is not an error body is passed on unchanged as the success, and only such a body; an error body (an object with an "error" member and a string "reason") always fails with that reason |
| Cloudant.ErrorWithoutReasonSucceeds | app-insights-iOS/app-insights/Cloudant.swift:62-65 | a body with an "error" member but no string "reason" is passed to the success callback |
| Cloudant.Authorize | app-insights-iOS/app-insights/Cloudant.swift:36-39 | authorisation fires the same kind of callback as the underlying request, with the same error and without the body |
| Cloudant.KeptAppsMembers | app-insights-iOS/app-insights/CloudantManager.swift:47-51 | an app is listed exactly when some row's "doc" decodes to it, and there are no more apps than rows |
| Cloudant.KeptAppsAppend | app-insights-iOS/app-insights/CloudantManager.swift:47-51 | the rows are decoded independently and in order |
| Cloudant.DecodeRows | app-insights-iOS/app-insights/CloudantManager.swift:46-51 | the loop keeps exactly the decodable rows' apps, in row order |
| Cloudant.FetchApps | app-insights-iOS/app-insights/CloudantManager.swift:42-59 | a request failure is forwarded unchanged; a body without a "rows" array fires no callback; otherwise success carries the decodable apps |
| Discovery.ErrorMessage | app-insights-iOS/app-insights/DiscoveryErrors.swift:26-39 | an `other` error shows its own message; the fixed errors show a sentence ending in a full stop |
| Discovery.FixedMessagesDistinct | app-insights-iOS/app-insights/DiscoveryErrors.swift:28-35 | different fixed errors have different messages |
| Discovery.QueryForAppNames | app-insights-iOS/app-insights/DiscoveryManager.swift:93-117 | an unserialisable response fails with `unexpectedJSON`; otherwise success fires once with the key of every result, in order |
| Discovery.DecodeSentiments | app-insights-iOS/app-insights/DiscoveryManager.swift:236-250 | the inner loop fails exactly when some count is not an integer, and each sentiment count is the last parsed count labelled with it, or 0 |
| Discovery.IntegerCountsParse | app-insights-iOS/app-insights/DiscoveryManager.swift:236-250 | integer counts, as the service sends them, always parse and are read as themselves |
| Discovery.LastCountOfAbsentLabel | app-insights-iOS/app-insights/DiscoveryManager.swift:236-250 | a sentiment with no labelled entry keeps the count 0 |
| Discovery.DecodeRow | app-insights-iOS/app-insights/DiscoveryManager.swift:232-252 | one row decodes to a keyword labelled positive, neutral and negative with the row's counts, and fails exactly when a count is bad |
| Discovery.QueryForKeywordsAndSentiment | app-insights-iOS/app-insights/DiscoveryManager.swift:215-258 | success fires once per row with all keywords decoded so far; `stringToIntFailed` fires once per row with a bad count and is the only failure; nothing fires when there are no rows or the response cannot be serialised |
| Discovery.DecodeSlice | app-insights-iOS/app-insights/DiscoveryManager.swift:140-156 | one time slice decodes to its date with its positive and negative counts, and fails exactly when a count is bad |
| Discovery.QueryForSentiment | app-insights-iOS/app-insights/DiscoveryManager.swift:125-161 | success fires once per time slice with all slices so far; `stringToIntFailed` fires once per slice with a bad count; nothing fires without slices |
| Discovery.QueryForLowRatingReviews | app-insights-iOS/app-insights/DiscoveryManager.swift:171-204 | reviews are decoded in order up to the first unparsable rating, which fires `stringToIntFailed` once; success then fires once with exactly the reviews before it |
| Scripts.PunctuationIsListed | scripts/extract_upload_app_details.py:30 | the punctuation test is exactly membership in the 32 listed ASCII punctuation characters |
| Scripts.ToAscii | scripts/extract_upload_app_details.py:12-14 | the result is no longer than the input and holds only printable characters |
| Scripts.ToAsciiCounts | scripts/extract_upload_app_details.py:12-14 | every printable character is kept as often as it occurs and every other one is dropped |
| Scripts.ToAsciiAppend | scripts/extract_upload_app_details.py:12-14 | filtering distributes over concatenation, so order is kept |
| Scripts.ToAsciiFixedPoint | scripts/extract_upload_app_details.py:12-14 | text is unchanged exactly when it is all printable |
| Scripts.ToAsciiIdempotent | scripts/extract_upload_app_details.py:12-14 | filtering twice is filtering once |
| Scripts.EndSentence | scripts/extract_upload_app_details.py:30-31 | text is kept as a prefix, and ". " is appended exactly when the text is non-empty and its last character is not punctuation |
| Scripts.CleanDescription | scripts/extract_upload_app_details.py:16-32 | the result is empty exactly when no printable character remains; it is printable and is the filtered text (leading whitespace kept, as written), with ". " appended exactly when that text does not end in punctuation |
| Scripts.CleanDescriptionKeepsLeadingSpace | scripts/extract_upload_app_details.py:27 | a description starting with whitespace still starts with it, and whitespace alone becomes whitespace plus ". " |
| Scripts.CleanDescriptionStripped | scripts/extract_upload_app_details.py:23-31 | the corrected cleaning never starts with whitespace, stays printable, is the stripped filtered text with at most ". " appended, and is empty exactly when nothing but whitespace remains |
| Scripts.CleanDescriptionsAgree | scripts/extract_upload_app_details.py:16-32 | both versions agree on text that does not start with whitespace |
| Scripts.ReadPiece | scripts/extract_upload_app_details.py:63-74 | a piece mentioning neither "stars" nor "Ratings" changes nothing; a rating is only set from a "stars" piece and is text float() accepts; the review count is only set from a "Ratings" piece without "stars" |
| Scripts.ReadStarsPiece | scripts/extract_upload_app_details.py:67-72 | "N stars" reads rating N, and "N and a half stars" reads N.5 |
| Scripts.ReadCountPiece | scripts/extract_upload_app_details.py:73-74 | "N Ratings" reads the review count N |
| Scripts.ExtractRating | scripts/extract_upload_app_details.py:53-75 | the text is split at every comma; it raises exactly when some piece fails `float()` or `int()`; otherwise the rating is the first word of the last piece mentioning "stars" (with ".5" when that piece says "and a half"), the count is `int()` of the first word of the last piece naming "Ratings" without "stars", and each is None when there is no such piece; a rating returned is text `float()` accepts |
| Scripts.ReadPiecesRaises | scripts/extract_upload_app_details.py:63-74 | the segment loop raises exactly when one of its pieces makes `float()` or `int()` raise, whatever came before it |
| Scripts.ReadPiecesValue | scripts/extract_upload_app_details.py:63-74 | later pieces overwrite earlier ones: after the loop the rating comes from the last stars piece and the count from the last count piece, and a value with no such piece keeps its start value |
| Scripts.ExtractRatingOfLabel | scripts/extract_upload_app_details.py:53-75 | the store's label "N[ and a half] stars, M Ratings" reads back as the rating and the count it was built from |
| Scripts.ExtractRatingReadsLastGroup | scripts/extract_upload_app_details.py:61-74 | a count written with a thousands separator is split at the comma and only its last group is read as the count |
| Scripts.RatingTextIsFloat | scripts/extract_upload_app_details.py:68-72 | the rating text built from digits and an optional ".5" is accepted by float() |
| Scripts.TitleWordsMembers | scripts/extract_upload_app_details.py:177 | the title words are exactly the lower-cased whitespace-separated words of the app-info phrases |
| Scripts.CleanKeywords | scripts/extract_upload_app_details.py:172-185 | None exactly when every keyword overlaps a title word; otherwise the lower-cased form of a keyword |
| Scripts.QueryForTopKeywords | scripts/extract_upload_app_details.py:202-204 | a chosen top keyword is the lower-cased form of one of the keywords and is not empty |
| Scripts.EmptyPhraseOverlaps | scripts/extract_upload_app_details.py:181 | because the empty string is in every string, an empty keyword always overlaps once there is any title word |
| Scripts.OverlapsIsNoise | scripts/extract_upload_app_details.py:177-181 | for a non-empty keyword and space-free app words, the script's overlap test is the app's similarity test |
| Scripts.VocabularyIsSpaceFree | scripts/extract_upload_app_details.py:202-203 | the script's app info is the app's noise vocabulary, and its words contain no whitespace when name and category separate words by spaces only |
| Scripts.TopKeywordIsFirstNonNoise | scripts/extract_upload_app_details.py:172-204 | the script picks the first keyword the app would not treat as a noise word, lower-cased, and picks none exactly when all are noise |
| Scripts.ExtractId | scripts/grab_top_apps.py:7-16 | "not found" exactly when no "/id" is followed by a digit; otherwise the digits after the leftmost such "/id", all of them |
| Scripts.ExtractIdOfLink | scripts/grab_top_apps.py:7-16 | a store link ".../id<digits>..." yields those digits |
| Numbers.SwiftInt | app-insights-iOS/app-insights/DiscoveryManager.swift:237 | a Swift integer parse succeeds exactly on an optionally signed decimal within the 64-bit range, with its value |
| Numbers.SwiftIntOfDecimal | app-insights-iOS/app-insights/DiscoveryManager.swift:237 | every 64-bit integer written in decimal parses back to itself |
| Numbers.ScanHex | app-insights-iOS/app-insights/UIColorExtension.swift:66-68 | the scan fails exactly when no hex digit leads; otherwise it reads the leading run of hex digits, bounded by the 64-bit range |
| Text.SplitOn | app-insights-iOS/app-insights/KeywordsTableViewController.swift:118-121 | splitting on a separator gives at least one part, none holding the separator, and joining them restores the text |
| Text.SplitOnJoin | app-insights-iOS/app-insights/KeywordsTableViewController.swift:118-121 | splitting joined separator-free parts gives back the parts |
| Text.Words | scripts/extract_upload_app_details.py:66 | whitespace splitting gives non-empty, whitespace-free words that together are the text without whitespace |
| Text.WordsOfLStrip | scripts/extract_upload_app_details.py:66 | stripping leading whitespace before splitting on whitespace changes nothing |
| Text.LStrip | scripts/extract_upload_app_details.py:66 | the result is the input without its leading whitespace run: a suffix not starting with whitespace |
| Text.ContainsIff | app-insights-iOS/app-insights/KeywordsTableViewController.swift:165 | `range(of:)` finds a needle exactly when it is non-empty and occurs |
| Text.PyInIff | scripts/extract_upload_app_details.py:181 | Python's `in` holds exactly when the needle occurs, so the empty string is in everything |

## Left out

- The view controllers, table cells, navigation and chart setup, and all threading: they only display the modelled data.
- Networking: the Watson Discovery query strings, RestKit requests and HTTP are not modelled. Responses and transport errors are inputs.
- `setupDiscovery`, `getCollectionID`, `setupCloudant` and `fetchAllDocumentsOfDatabase` are only request plumbing. The route that `fetchAllDocumentsOfDatabase` requests is `Cloudant.FetchAppsRequest`.
- The basic-authentication credentials built in `Cloudant.init`: they go to the HTTP layer only.
- `URL(string:)`, `Double(String)`, the printing of a double by SwiftyJSON and the date formatting in `transformDateToString` are platform routines. They are function parameters (`urlParses`, the fields of `Platform`).
- SwiftyJSON itself: a JSON value is the `Json` datatype. Only the accessors the core uses (`.string`, `.int`, `.double`, `.dictionary`, `.array`, `.stringValue`) are modelled. A response that cannot be serialised back is `None`.
- Floating point: `Double` and `CGFloat` are Dafny `real`, so rounding is not modelled.
- Scripts.ExtractRating: the rating is kept as the text that `float()` accepts, not as a binary float. A `ValueError` from `float()` or `int()` is modelled, but the value `float()` computes is not.
- Text.Lower: lower-casing covers ASCII letters only.
- Text.Words: only the six ASCII whitespace characters separate words. The scripts pass unicode strings, whose `split()` and `lstrip()` also break on other whitespace, such as U+001C–U+001F, U+0085, U+00A0, U+2000–U+200A and U+3000. Text.LStrip has the same restriction.
- Scripts.ExtractRating: because of the ASCII-only whitespace, a label such as "4\u00a0stars" has the first word "4\u00a0stars" here and raises, while the script reads the rating 4.0.
- Scripts.CleanKeywords: the title words are split on ASCII whitespace only, so a name separated by another unicode space is one word here.
- Json.Elements: SwiftyJSON's `for (_, x) in json` over an object yields the object's values in an unspecified order. The model gives no elements for an object, so the Discovery loops treat an object "results" member as empty.
- KeywordModel.AddSentiments: counts are unbounded integers, so Swift's overflow trap on a sum beyond 64 bits is not modelled.
- Numbers.ScanHex: `Scanner` skipping leading whitespace and accepting a "0x" prefix is not modelled, and on overflow only the 64-bit bound is stated.
- Discovery.ErrorMessage: the fixed messages' exact wording is not stated in the contract. The contract says only that they are sentences and, through `FixedMessagesDistinct`, that they differ.
- Discovery.QueryForSentiment: neutral counts are read, and a bad one fails like the others, but they are dropped. A time slice keeps only positive and negative.
- The `print` in the default case of `UIColor(hex:)`: console output only.
- `find_description`, `find_image`, `find_rating_and_num_reviews`, the BeautifulSoup and lxml parsing, the other Discovery queries of the scripts and the Cloudant upload: parsing HTML and network I/O. `query_for_top_keywords` is modelled from the point where the keyword texts have been taken from the response.
- Scripts.QueryForTopKeywords: an empty keyword list gives `None` here, but the script never gets that far, because indexing the first result raises `IndexError` first (scripts/extract_upload_app_details.py:196).
- Text.ContainsIff: text is compared code point by code point. Swift's `String ==` and Foundation's `range(of:)` without `.literal` treat canonically equivalent text as equal, for example "é" and "e\u0301". The same holds for the consolidator's equality tests: the check-list removal (KeywordsTableViewController.swift:126) and the absorbed test `similarKeywords.contains` (:139). In the model such a pair is two different keywords, while the app would remove the entry and count the keyword as absorbed. Unicode normalisation is not modelled.
- `ingest_reviews.py`, `extract_reviews.py` and `settings.py` are not part of this model.
- The declarations of `CloudantErrors`, `GraphSentiment`, `Review` and `Credentials` are not part of this model. They are rebuilt from their uses.

## Findings

| source | as written | input that shows it | evidently intended | confidence | as-written member | corrected member |
|---|---|---|---|---|---|---|
| scripts/extract_upload_app_details.py:27 | `t.lstrip()` is called but its result is discarded, so leading whitespace stays | `clean_description(" x")` returns `" x. "`; `clean_description("  ")` returns `"  . "` | remove leading whitespace, as the comment on line 26 says (`t = t.lstrip()`), with the emptiness test applying to the stripped text | not executed | Scripts.CleanDescriptionKeepsLeadingSpace | Scripts.CleanDescriptionStripped |

=== FILE: app.dfy ===
/** The app record the list screen shows, decoded from a Cloudant
    document, and the document the upload script writes for it. */
module AppModel {
  import opened Wrappers
  import opened Json

  /** `App`. The image URL is kept as the text it was parsed from. */
  datatype App = App(
    name: string,
    description: string,
    imageURL: string,
    category: string,
    rating: real,
    numberOfReviews: int,
    topKeyword: string,
    numberOfTurnarounds: int,
    appSentimentValue: real)

  /** The nine members `App(json:)` requires, with the type each must have. */
  predicate HasRequiredFields(json: Json) {
    && AsString(Get(json, "name")).Some?
    && AsString(Get(json, "description")).Some?
    && AsString(Get(json, "image")).Some?
    && AsString(Get(json, "category")).Some?
    && AsDouble(Get(json, "rating")).Some?
    && AsInt(Get(json, "total_reviews")).Some?
    && AsString(Get(json, "keyword")).Some?
    && AsInt(Get(json, "turnarounds")).Some?
    && AsDouble(Get(json, "sentiment")).Some?
  }

  /** `App(json:)`. `urlParses` stands for `URL(string:)` succeeding.
      Every member is read in turn and the first one missing or of the
      wrong type makes the initializer fail. */
  function DecodeApp(json: Json, urlParses: string -> bool): (r: Option<App>)
    ensures r.Some? <==> HasRequiredFields(json) && urlParses(AsString(Get(json, "image")).value)
    ensures r.Some? ==>
      && Some(r.value.name) == AsString(Get(json, "name"))
      && Some(r.value.description) == AsString(Get(json, "description"))
      && Some(r.value.imageURL) == AsString(Get(json, "image"))
      && Some(r.value.category) == AsString(Get(json, "category"))
      && Some(r.value.rating) == AsDouble(Get(json, "rating"))
      && Some(r.value.numberOfReviews) == AsInt(Get(json, "total_reviews"))
      && Some(r.value.topKeyword) == AsString(Get(json, "keyword"))
      && Some(r.value.numberOfTurnarounds) == AsInt(Get(json, "turnarounds"))
      && Some(r.value.appSentimentValue) == AsDouble(Get(json, "sentiment"))
  {
    var name :- AsString(Get(json, "name"));
    var description :- AsString(Get(json, "description"));
    var imageURLString :- AsString(Get(json, "image"));
    var imageURL :- if urlParses(imageURLString) then Some(imageURLString) else None;
    var category :- AsString(Get(json, "category"));
    var rating :- AsDouble(Get(json, "rating"));
    var numberOfReviews :- AsInt(Get(json, "total_reviews"));
    var topKeyword :- AsString(Get(json, "keyword"));
    var numberOfTurnarounds :- AsInt(Get(json, "turnarounds"));
    var appSentimentValue :- AsDouble(Get(json, "sentiment"));
    Some(App(name, description, imageURL, category, rating, numberOfReviews,
             topKeyword, numberOfTurnarounds, appSentimentValue))
  }

  /** The keys `DecodeApp` reads. */
  const AppKeys: set<string> :=
    {"name", "description", "image", "category", "rating", "total_reviews",
     "keyword", "turnarounds", "sentiment"}

  /** The document the upload script stores for an app: the same keys,
      whole numbers as integers and the rating and sentiment as floats. */
  function EncodeApp(app: App): (json: Json)
    ensures json.JObject? && json.fields.Keys == AppKeys
  {
    JObject(map[
      "name" := JString(app.name),
      "description" := JString(app.description),
      "image" := JString(app.imageURL),
      "category" := JString(app.category),
      "rating" := JReal(app.rating),
      "total_reviews" := JInt(app.numberOfReviews),
      "keyword" := JString(app.topKeyword),
      "turnarounds" := JInt(app.numberOfTurnarounds),
      "sentiment" := JReal(app.appSentimentValue)])
  }

  /** A stored document decodes back to the app it was written from,
      provided its image text is a URL. */
  lemma DecodeEncode(app: App, urlParses: string -> bool)
    requires urlParses(app.imageURL)
    ensures DecodeApp(EncodeApp(app), urlParses) == Some(app)
  {
    var json := EncodeApp(app);
    assert Get(json, "name") == JString(app.name);
    assert Get(json, "description") == JString(app.description);
    assert Get(json, "image") == JString(app.imageURL);
    assert Get(json, "category") == JString(app.category);
    assert Get(json, "rating") == JReal(app.rating);
    assert Get(json, "total_reviews") == JInt(app.numberOfReviews);
    assert Get(json, "keyword") == JString(app.topKeyword);
    assert Get(json, "turnarounds") == JInt(app.numberOfTurnarounds);
    assert Get(json, "sentiment") == JReal(app.appSentimentValue);
  }

  /** Members other than the nine are ignored: adding or replacing one
      changes nothing. */
  lemma DecodeIgnoresOtherKeys(fields: map<string, Json>, key: string, value: Json, urlParses: string -> bool)
    requires key !in AppKeys
    ensures DecodeApp(JObject(fields[key := value]), urlParses) == DecodeApp(JObject(fields), urlParses)
  {
    var json, json' := JObject(fields), JObject(fields[key := value]);
    forall k | k in AppKeys
      ensures Get(json', k) == Get(json, k)
    {
    }
  }

  /** A document that is not an object, or misses any member, is rejected. */
  lemma DecodeRejectsMissingMember(json: Json, key: string, urlParses: string -> bool)
    requires key in AppKeys
    requires !json.JObject? || key !in json.fields
    ensures DecodeApp(json, urlParses) == None
  {
    assert Get(json, key) == JNull;
  }
}

=== FILE: cloudant.dfy ===
/** The Cloudant client: the base URL its initializer records, the
    request paths of the router, how a response is turned into a
    callback, and the app list fetched from the apps database. */
module Cloudant {
  import opened Wrappers
  import opened Json
  import opened AppModel

  /** `CloudantErrors`; the app only ever builds the `.other` case. */
  datatype CloudantError = Other(message: string)

  /** `Cloudant(username:password:)` sets the router's base URL to the
      account's host. */
  function BaseURL(username: string): (url: string)
    ensures |url| == |username| + 21
    ensures url[..8] == "https://" && url[|url| - 13..] == ".cloudant.com"
  {
    "https://" + username + ".cloudant.com"
  }

  /** The account name inside a base URL, if it has that shape. */
  function UsernameOf(url: string): (r: Option<string>)
    ensures r.Some? ==> BaseURL(r.value) == url
  {
    if |url| >= 21 && url[..8] == "https://" && url[|url| - 13..] == ".cloudant.com" then
      var username := url[8..|url| - 13];
      assert url == url[..8] + username + url[|url| - 13..];
      Some(username)
    else None
  }

  /** Different accounts get different base URLs. */
  lemma BaseURLRoundTrip(username: string)
    ensures UsernameOf(BaseURL(username)) == Some(username)
  {
    var url := BaseURL(username);
    assert url[8..|url| - 13] == username;
  }

  /** `CloudantRouter`. */
  datatype Route = GetAllDBs | GetAllDocsOfDB(named: string, includeDocs: bool)

  datatype Request = Request(httpMethod: string, path: string)

  const AllDBsPath := "/_all_dbs"
  const AllDocsPath := "/_all_docs"
  const IncludeDocsQuery := "?include_docs=true"

  /** `route.params`, given the router's static `baseURL`, which is force
      unwrapped: unset, it traps. */
  function Params(route: Route, baseURL: Option<string>): (r: Outcome<Request>)
    ensures r.Returned? <==> baseURL.Some?
    ensures r.Returned? ==> r.value.httpMethod == "GET"
    ensures r.Returned? ==> |baseURL.value| <= |r.value.path| && r.value.path[..|baseURL.value|] == baseURL.value
  {
    match baseURL
    case None => Trapped
    case Some(base) =>
      match route
      case GetAllDBs => Returned(Request("GET", base + AllDBsPath))
      case GetAllDocsOfDB(dbName, includeDocs) =>
        if includeDocs then Returned(Request("GET", base + "/" + dbName + AllDocsPath + IncludeDocsQuery))
        else Returned(Request("GET", base + "/" + dbName + AllDocsPath))
  }

  predicate EndsWith(s: string, suffix: string) {
    |suffix| <= |s| && s[|s| - |suffix|..] == suffix
  }

  /** Reads a request path back into the route it came from. */
  function ParsePath(base: string, path: string): Option<Route> {
    if |path| < |base| || path[..|base|] != base then None
    else
      var rest := path[|base|..];
      if rest == AllDBsPath then Some(GetAllDBs)
      else if |rest| >= 29 && rest[0] == '/' && EndsWith(rest, AllDocsPath + IncludeDocsQuery) then
        Some(GetAllDocsOfDB(rest[1..|rest| - 28], true))
      else if |rest| >= 11 && rest[0] == '/' && EndsWith(rest, AllDocsPath) then
        Some(GetAllDocsOfDB(rest[1..|rest| - 10], false))
      else None
  }

  /** The part of a path after the base URL. */
  lemma PathAfterBase(base: string, tail: string)
    ensures ParsePath(base, base + tail) == ParsePath("", tail)
  {
    assert (base + tail)[..|base|] == base;
    assert (base + tail)[|base|..] == tail;
    assert tail[..0] == "";
    assert tail[0..] == tail;
  }

  lemma ParseAllDocs(dbName: string)
    ensures ParsePath("", "/" + dbName + AllDocsPath) == Some(GetAllDocsOfDB(dbName, false))
  {
    var rest := "/" + dbName + AllDocsPath;
    assert rest[..0] == "" && rest[0..] == rest;
    assert rest[|rest| - 2] == 'c';
    assert rest != AllDBsPath;
    assert rest[|rest| - 10..] == AllDocsPath;
    assert !EndsWith(rest, AllDocsPath + IncludeDocsQuery) by {
      if |rest| >= 28 {
        assert rest[|rest| - 1] == 's';
        assert (AllDocsPath + IncludeDocsQuery)[27] == 'e';
      }
    }
    assert rest[1..|rest| - 10] == dbName;
  }

  lemma ParseAllDocsIncluded(dbName: string)
    ensures ParsePath("", "/" + dbName + AllDocsPath + IncludeDocsQuery) == Some(GetAllDocsOfDB(dbName, true))
  {
    var rest := "/" + dbName + AllDocsPath + IncludeDocsQuery;
    assert rest[..0] == "" && rest[0..] == rest;
    assert |rest| >= 29;
    assert rest != AllDBsPath;
    assert rest[|rest| - 28..] == AllDocsPath + IncludeDocsQuery;
    assert rest[1..|rest| - 28] == dbName;
  }

  /** Distinct routes never share a path: the path determines the route. */
  lemma ParamsRoundTrip(route: Route, base: string)
    ensures ParsePath(base, Params(route, Some(base)).value.path) == Some(route)
  {
    match route
    case GetAllDBs =>
      PathAfterBase(base, AllDBsPath);
      assert AllDBsPath[..0] == "" && AllDBsPath[0..] == AllDBsPath;
    case GetAllDocsOfDB(dbName, includeDocs) =>
      if includeDocs {
        assert base + "/" + dbName + AllDocsPath + IncludeDocsQuery == base + ("/" + dbName + AllDocsPath + IncludeDocsQuery);
        PathAfterBase(base, "/" + dbName + AllDocsPath + IncludeDocsQuery);
        ParseAllDocsIncluded(dbName);
      } else {
        assert base + "/" + dbName + AllDocsPath == base + ("/" + dbName + AllDocsPath);
        PathAfterBase(base, "/" + dbName + AllDocsPath);
        ParseAllDocs(dbName);
      }
  }

  /** The base URL a `Cloudant` initializer leaves in the router. */
  function Init(username: string): (baseURL: Option<string>)
    ensures baseURL.Some? && UsernameOf(baseURL.value) == Some(username)
  {
    BaseURLRoundTrip(username);
    Some(BaseURL(username))
  }

  /** After initialisation every route yields a request on the account's
      host. */
  lemma ParamsAfterInit(route: Route, username: string)
    ensures Params(route, Init(username)).Returned?
    ensures var path := Params(route, Init(username)).value.path;
            |path| >= |BaseURL(username)| && path[..|BaseURL(username)|] == BaseURL(username)
  {
  }

  /** What the HTTP layer hands to the response handler: a transport
      error's description and the body, already parsed as JSON. */
  datatype Response = Response(error: Option<string>, data: Option<Json>)

  /** The body is an object carrying an "error" member and a string
      "reason". */
  predicate IsErrorBody(json: Json) {
    && Dictionary(json).Some?
    && "error" in json.fields
    && AsString(Get(json, "reason")).Some?
  }

  /** `requestCloudant`'s response handler: which callback fires, with
      what, or `None` when none does. */
  function RequestCloudant(response: Response): (r: Option<Callback<Json, CloudantError>>)
    ensures response.error.Some? ==> r == Some(Failure(Other(response.error.value)))
    ensures response.error.None? && response.data.None? ==> r.None?
    ensures r.Some? && r.value.Success? ==> response.error.None? && response.data == Some(r.value.value) && !IsErrorBody(r.value.value)
    ensures r.Some? && r.value.Failure? && response.error.None? ==>
              response.data.Some? && IsErrorBody(response.data.value) &&
              r.value.error.message == AsString(Get(response.data.value, "reason")).value
    ensures response.error.None? && response.data.Some? && !IsErrorBody(response.data.value) ==>
              r == Some(Success(response.data.value))
    ensures response.error.None? && response.data.Some? && IsErrorBody(response.data.value) ==>
              r == Some(Failure(Other(AsString(Get(response.data.value, "reason")).value)))
  {
    match response.error
    case Some(errorMessage) => Some(Failure(Other(errorMessage)))
    case None =>
      match response.data
      case None => None
      case Some(json) =>
        if IsErrorBody(json) then Some(Failure(Other(AsString(Get(json, "reason")).value)))
        else Some(Success(json))
  }

  /** An "error" member alone is not enough: without a string "reason"
      the body is passed on as a success. */
  lemma ErrorWithoutReasonSucceeds(fields: map<string, Json>)
    requires "error" in fields
    requires "reason" !in fields || !fields["reason"].JString?
    ensures RequestCloudant(Response(None, Some(JObject(fields)))) == Some(Success(JObject(fields)))
  {
  }

  /** `authorize`: the request it sends, and its outcome, which drops the
      payload of a success. */
  function AuthorizeRequest(baseURL: Option<string>): Outcome<Request> {
    Params(GetAllDBs, baseURL)
  }

  function Authorize(response: Response): (r: Option<Callback<(), CloudantError>>)
    ensures r.None? <==> RequestCloudant(response).None?
    ensures r.Some? ==> (r.value.Success? <==> RequestCloudant(response).value.Success?)
    ensures r.Some? && r.value.Failure? ==> RequestCloudant(response).value == Failure(r.value.error)
  {
    match RequestCloudant(response)
    case None => None
    case Some(Success(_)) => Some(Success(()))
    case Some(Failure(e)) => Some(Failure(e))
  }

  const AppsDBName := "app_db"

  /** The request `fetchApps` sends: every document of the apps database. */
  function FetchAppsRequest(baseURL: Option<string>): Outcome<Request> {
    Params(GetAllDocsOfDB(AppsDBName, true), baseURL)
  }

  /** The app in one row of the listing: its "doc" member, decoded. */
  function RowApp(row: Json, urlParses: string -> bool): Option<App> {
    if Dictionary(row).Some? && "doc" in row.fields then DecodeApp(row.fields["doc"], urlParses)
    else None
  }

  function RowDecoder(urlParses: string -> bool): Json -> Option<App> {
    row => RowApp(row, urlParses)
  }

  /** Reference: the apps of the rows that decode, in row order. */
  function KeptApps(rows: seq<Json>, urlParses: string -> bool): seq<App> {
    MapPresent(rows, RowDecoder(urlParses))
  }

  /** No more apps than rows, and an app is kept exactly when some row's
      document decodes to it. */
  lemma KeptAppsMembers(rows: seq<Json>, urlParses: string -> bool, app: App)
    ensures |KeptApps(rows, urlParses)| <= |rows|
    ensures app in KeptApps(rows, urlParses) <==> exists i :: 0 <= i < |rows| && RowApp(rows[i], urlParses) == Some(app)
  {
    MapPresentMembers(rows, RowDecoder(urlParses), app);
  }

  /** Keeping is done row by row: the apps of two listings in a row are
      the apps of each, in turn. */
  lemma KeptAppsAppend(a: seq<Json>, b: seq<Json>, urlParses: string -> bool)
    ensures KeptApps(a + b, urlParses) == KeptApps(a, urlParses) + KeptApps(b, urlParses)
  {
    MapPresentAppend(a, b, RowDecoder(urlParses));
  }

  lemma KeptAppsOfOne(row: Json, urlParses: string -> bool)
    ensures KeptApps([row], urlParses) == if RowApp(row, urlParses).Some? then [RowApp(row, urlParses).value] else []
  {
    var f := RowDecoder(urlParses);
    assert [row][1..] == [];
    assert MapPresent([row][1..], f) == [];
    assert f(row) == RowApp(row, urlParses);
    var head := if f(row).Some? then [f(row).value] else [];
    assert MapPresent([row], f) == head + [];
  }

  /** The loop of `fetchApps`: each row whose "doc" is an app is appended. */
  method DecodeRows(rows: seq<Json>, urlParses: string -> bool) returns (apps: seq<App>)
    ensures apps == KeptApps(rows, urlParses)
  {
    apps := [];
    for i := 0 to |rows|
      invariant apps == KeptApps(rows[..i], urlParses)
    {
      KeptAppsAppend(rows[..i], [rows[i]], urlParses);
      KeptAppsOfOne(rows[i], urlParses);
      assert rows[..i + 1] == rows[..i] + [rows[i]];
      var item := rows[i];
      if Dictionary(item).Some? && "doc" in item.fields {
        var app := DecodeApp(item.fields["doc"], urlParses);
        if app.Some? {
          apps := apps + [app.value];
        }
      }
    }
    assert rows[..|rows|] == rows;
  }

  /** `fetchApps`: the callback it fires for a response to its request,
      or `None` when it fires none. */
  method FetchApps(response: Response, urlParses: string -> bool) returns (r: Option<Callback<seq<App>, CloudantError>>)
    ensures RequestCloudant(response) == None ==> r == None
    ensures RequestCloudant(response).Some? && RequestCloudant(response).value.Failure? ==>
              r == Some(Failure(RequestCloudant(response).value.error))
    ensures RequestCloudant(response).Some? && RequestCloudant(response).value.Success? ==>
              var json := RequestCloudant(response).value.value;
              if Array(Get(json, "rows")).Some? then r == Some(Success(KeptApps(Array(Get(json, "rows")).value, urlParses)))
              else r == None
  {
    match RequestCloudant(response)
    case None =>
      r := None;
    case Some(Failure(error)) =>
      r := Some(Failure(error));
    case Some(Success(json)) =>
      if Dictionary(json).Some? && "rows" in json.fields && Array(json.fields["rows"]).Some? {
        var apps := DecodeRows(Array(json.fields["rows"]).value, urlParses);
        r := Some(Success(apps));
      } else {
        r := None;
      }
  }
}

=== FILE: color.dfy ===
/** `UIColor(hex:alpha:)`: a colour from "#rrggbb", "rrggbb", "#rgb" or
    "rgb". Channel values are exact fractions in [0, 1]. */
module Color {
  import opened Wrappers
  import opened Numbers

  datatype Rgba = Rgba(red: real, green: real, blue: real, alpha: real)

  /** The hex text after one leading "#", if there is one. */
  function StripHash(hex: string): (r: string)
    ensures |hex| > 0 && hex[0] == '#' ==> r == hex[1..]
    ensures (|hex| == 0 || hex[0] != '#') ==> r == hex
  {
    if |hex| > 0 && hex[0] == '#' then hex[1..] else hex
  }

  /** `(v >> (8 * k)) & 0xFF`. */
  function ByteAt(v: nat, k: nat): (b: nat)
    ensures b < 256
  {
    (v / Pow256(k)) % 256
  }

  /** `(v >> (4 * k)) & 0xF`. */
  function NibbleAt(v: nat, k: nat): (n: nat)
    ensures n < 16
  {
    (v / Pow16(k)) % 16
  }

  function Pow256(k: nat): (p: nat)
    ensures p >= 1
  {
    if k == 0 then 1 else 256 * Pow256(k - 1)
  }

  function Pow16(k: nat): (p: nat)
    ensures p >= 1
  {
    if k == 0 then 1 else 16 * Pow16(k - 1)
  }

  /** `UIColor(hex: hex, alpha: alpha)`. The length test counts every
      character after the "#", not only the digits the scanner read. */
  function ColorFromHex(hex: string, alpha: real): (c: Rgba)
    ensures c.alpha == alpha
    ensures 0.0 <= c.red <= 1.0 && 0.0 <= c.green <= 1.0 && 0.0 <= c.blue <= 1.0
    ensures ScanHex(StripHash(hex)).None? || (|StripHash(hex)| != 3 && |StripHash(hex)| != 6) ==>
              c == Rgba(0.0, 0.0, 0.0, alpha)
  {
    var hexString := StripHash(hex);
    match ScanHex(hexString)
    case None => Rgba(0.0, 0.0, 0.0, alpha)
    case Some(v) =>
      if |hexString| == 3 then
        Rgba(NibbleAt(v, 2) as real / 15.0, NibbleAt(v, 1) as real / 15.0, NibbleAt(v, 0) as real / 15.0, alpha)
      else if |hexString| == 6 then
        Rgba(ByteAt(v, 2) as real / 255.0, ByteAt(v, 1) as real / 255.0, ByteAt(v, 0) as real / 255.0, alpha)
      else
        Rgba(0.0, 0.0, 0.0, alpha)
  }

  /** A leading "#" is optional, and only one is dropped: a second "#"
      makes the scan fail and the colour black. */
  lemma HashIsOptional(s: string, alpha: real)
    ensures (|s| == 0 || s[0] != '#') ==> ColorFromHex("#" + s, alpha) == ColorFromHex(s, alpha)
    ensures |s| > 0 && s[0] == '#' ==> ColorFromHex("#" + s, alpha) == Rgba(0.0, 0.0, 0.0, alpha)
  {
    assert ("#" + s)[1..] == s;
  }

  /** Scanning a whole string of hex digits reads all of them. */
  lemma ScanAllHex(s: string)
    requires |s| > 0 && AllHexDigits(s) && HexDigitsValue(s) <= UInt64Max
    ensures ScanHex(s) == Some(HexDigitsValue(s))
  {
    assert HexRun(s) == |s|;
    assert s[..|s|] == s;
  }

  /** The value of a prefix of hex digits grows by one digit at a time. */
  lemma HexPrefixStep(s: string, k: nat)
    requires AllHexDigits(s) && 0 < k <= |s|
    ensures AllHexDigits(s[..k]) && AllHexDigits(s[..k - 1])
    ensures HexDigitsValue(s[..k]) == HexDigitsValue(s[..k - 1]) * 16 + HexDigitValue(s[k - 1])
  {
    assert s[..k][..k - 1] == s[..k - 1];
  }

  /** Two hex digits make a byte. */
  lemma TwoHexDigits(t: string)
    requires |t| == 2 && AllHexDigits(t)
    ensures HexDigitsValue(t) == HexDigitValue(t[0]) * 16 + HexDigitValue(t[1]) < 256
  {
    HexPrefixStep(t, 2);
    HexPrefixStep(t, 1);
    assert t[..2] == t && t[..0] == [];
  }

  /** The digits of `a` then `b` spell `a`'s value shifted past `b`'s
      digits, plus `b`'s value. */
  lemma {:induction false} HexDigitsConcat(a: string, b: string)
    requires AllHexDigits(a) && AllHexDigits(b)
    ensures AllHexDigits(a + b)
    ensures HexDigitsValue(a + b) == HexDigitsValue(a) * Pow16(|b|) + HexDigitsValue(b)
    decreases |b|
  {
    if |b| == 0 {
      assert a + b == a;
    } else {
      var init := b[..|b| - 1];
      assert (a + b)[..|a + b| - 1] == a + init;
      assert (a + b)[|a + b| - 1] == b[|b| - 1];
      HexDigitsConcat(a, init);
      HexPrefixStep(a + b, |a + b|);
      HexPrefixStep(b, |b|);
      assert (a + b)[..|a + b|] == a + b && b[..|b|] == b;
      ShiftByOneDigit(HexDigitsValue(a), Pow16(|init|), HexDigitsValue(init), HexDigitValue(b[|b| - 1]));
    }
  }

  lemma ShiftByOneDigit(x: int, p: int, y: int, d: int)
    ensures (x * p + y) * 16 + d == x * (16 * p) + (y * 16 + d)
  {
  }

  /** Six hex digits are three bytes, most significant first. */
  lemma SixHexDigits(s: string)
    requires |s| == 6 && AllHexDigits(s)
    ensures HexDigitsValue(s) ==
            HexDigitsValue(s[..2]) * 65536 + HexDigitsValue(s[2..4]) * 256 + HexDigitsValue(s[4..])
  {
    assert s == s[..4] + s[4..];
    assert s[..4] == s[..2] + s[2..4];
    assert Pow16(2) == 256;
    HexDigitsConcat(s[..2], s[2..4]);
    HexDigitsConcat(s[..4], s[4..]);
  }

  /** Six hex digits, in either case, after a "#": the channels are the three
      bytes they spell, each over 255. */
  lemma ColorOfHex6(s: string, alpha: real)
    requires |s| == 6 && AllHexDigits(s)
    ensures ColorFromHex("#" + s, alpha) ==
            Rgba(HexDigitsValue(s[..2]) as real / 255.0,
                 HexDigitsValue(s[2..4]) as real / 255.0,
                 HexDigitsValue(s[4..]) as real / 255.0, alpha)
  {
    assert StripHash("#" + s) == s;
    TwoHexDigits(s[..2]);
    TwoHexDigits(s[2..4]);
    TwoHexDigits(s[4..]);
    SixHexDigits(s);
    var v := HexDigitsValue(s);
    ScanAllHex(s);
    ThreeBytes(v, HexDigitsValue(s[..2]), HexDigitsValue(s[2..4]), HexDigitsValue(s[4..]));
    ColorOfScan("#" + s, v, alpha);
  }

  lemma ThreeBytes(v: nat, r: nat, g: nat, b: nat)
    requires r < 256 && g < 256 && b < 256 && v == r * 65536 + g * 256 + b
    ensures ByteAt(v, 2) == r && ByteAt(v, 1) == g && ByteAt(v, 0) == b
  {
    assert Pow256(0) == 1 && Pow256(1) == 256 && Pow256(2) == 65536;
    assert v / 65536 == r;
    assert v / 256 == r * 256 + g;
    assert (r * 256 + g) % 256 == g;
    assert v % 256 == b;
  }

  lemma ThreeNibbles(v: nat, r: nat, g: nat, b: nat)
    requires r < 16 && g < 16 && b < 16 && v == r * 256 + g * 16 + b
    ensures NibbleAt(v, 2) == r && NibbleAt(v, 1) == g && NibbleAt(v, 0) == b
  {
    assert Pow16(0) == 1 && Pow16(1) == 16 && Pow16(2) == 256;
    assert v / 256 == r;
    assert v / 16 == r * 16 + g;
    assert (r * 16 + g) % 16 == g;
    assert v % 16 == b;
  }

  /** Once the scan and the length are known, the channels follow. */
  lemma ColorOfScan(hex: string, v: nat, alpha: real)
    requires ScanHex(StripHash(hex)) == Some(v)
    requires |StripHash(hex)| == 3 || |StripHash(hex)| == 6
    ensures |StripHash(hex)| == 3 ==>
              ColorFromHex(hex, alpha) ==
              Rgba(NibbleAt(v, 2) as real / 15.0, NibbleAt(v, 1) as real / 15.0, NibbleAt(v, 0) as real / 15.0, alpha)
    ensures |StripHash(hex)| == 6 ==>
              ColorFromHex(hex, alpha) ==
              Rgba(ByteAt(v, 2) as real / 255.0, ByteAt(v, 1) as real / 255.0, ByteAt(v, 0) as real / 255.0, alpha)
  {
  }

  /** Three hex digits, in either case: the channels are the three nibbles
      they spell, each over 15. */
  lemma ColorOfHex3(s: string, alpha: real)
    requires |s| == 3 && AllHexDigits(s)
    ensures ColorFromHex(s, alpha) ==
            Rgba(HexDigitValue(s[0]) as real / 15.0,
                 HexDigitValue(s[1]) as real / 15.0,
                 HexDigitValue(s[2]) as real / 15.0, alpha)
  {
    assert StripHash(s) == s;
    var r, g, b := HexDigitValue(s[0]), HexDigitValue(s[1]), HexDigitValue(s[2]);
    HexPrefixStep(s, 3);
    HexPrefixStep(s, 2);
    HexPrefixStep(s, 1);
    assert s[..0] == [] && s[..3] == s;
    var v := HexDigitsValue(s);
    assert v == r * 256 + g * 16 + b;
    ScanAllHex(s);
    ThreeNibbles(v, r, g, b);
    ColorOfScan(s, v, alpha);
  }

  /** "FF" is the full byte. */
  lemma FullByte(t: string)
    requires t == "FF"
    ensures AllHexDigits(t) && HexDigitsValue(t) == 255
  {
    TwoHexDigits(t);
  }

  /** The app's white: "FFFFFF" with the hash left off. */
  lemma WhiteOfUpperCase(alpha: real)
    ensures ColorFromHex("FFFFFF", alpha) == Rgba(1.0, 1.0, 1.0, alpha)
  {
    var s := "FFFFFF";
    assert s[..2] == "FF" && s[2..4] == "FF" && s[4..] == "FF";
    FullByte("FF");
    assert AllHexDigits(s);
    HashIsOptional(s, alpha);
    ColorOfHex6(s, alpha);
  }

  /** Only the leading digits count: "12g" scans as 0x12, and being three
      characters long it is read as the nibbles 0, 1, 2. */
  lemma TrailingJunkStillSizedByLength()
    ensures ColorFromHex("12g", 1.0) == Rgba(0.0, 1.0 / 15.0, 2.0 / 15.0, 1.0)
  {
    var s := "12g";
    assert HexRun(s) == 2;
    assert s[..2] == "12";
    assert HexDigitsValue("12") == 18 by {
      assert "12"[..1] == "1";
    }
    assert Pow16(1) == 16 && Pow16(2) == 256;
  }
}

=== FILE: consolidator.dfy ===
/** The keyword consolidation run before keywords are displayed: drop the
    keywords that echo the app's own name, category or a common word, merge
    the counts of a similar keyword into each keyword, and hide keywords that
    an earlier keyword already absorbed. */
module Consolidator {
  import opened Wrappers
  import opened Text
  import opened KeywordModel

  /** `commonKeywords`: generic words that are never shown. */
  const CommonKeywords: seq<string> := ["app"]

  /** `containsWord(word1:word2:)`: one word occurs inside the other, ignoring
      case. An empty word relates to nothing, since `range(of: "")` is nil. */
  predicate ContainsWord(word1: string, word2: string) {
    Contains(Lower(word1), Lower(word2)) || Contains(Lower(word2), Lower(word1))
  }

  /** `containsWord` is the symmetric "occurs in, ignoring case" relation on
      non-empty words. */
  lemma {:induction false} ContainsWordIff(word1: string, word2: string)
    ensures ContainsWord(word1, word2) <==>
            (|word1| > 0 && |word2| > 0 &&
             ((exists i :: OccursAt(Lower(word1), Lower(word2), i)) ||
              (exists i :: OccursAt(Lower(word2), Lower(word1), i))))
    ensures ContainsWord(word1, word2) == ContainsWord(word2, word1)
  {
    var a, b := Lower(word1), Lower(word2);
    ContainsIff(a, b);
    ContainsIff(b, a);
    if Contains(a, b) {
      var i :| OccursAt(a, b, i);
      assert |a| >= |b|;
      assert exists k :: OccursAt(Lower(word1), Lower(word2), k);
    }
    if Contains(b, a) {
      var i :| OccursAt(b, a, i);
      assert |b| >= |a|;
      assert exists k :: OccursAt(Lower(word2), Lower(word1), k);
    }
    if exists i :: OccursAt(a, b, i) {
      var i :| OccursAt(a, b, i);
      assert |a| >= |b|;
    }
    if exists i :: OccursAt(b, a, i) {
      var i :| OccursAt(b, a, i);
      assert |b| >= |a|;
    }
  }

  /** The noise words: the app name's words, the category's words, then
      `commonKeywords`, each list split on single spaces. */
  function NoiseVocabulary(appName: string, category: string): (vocab: seq<string>)
    ensures |vocab| >= 3 && vocab[|vocab| - 1] == "app"
    ensures forall w :: w in SplitOn(appName, ' ') ==> w in vocab
    ensures forall w :: w in SplitOn(category, ' ') ==> w in vocab
    ensures forall w :: w in vocab <==> w in SplitOn(appName, ' ') || w in SplitOn(category, ' ') || w == "app"
  {
    SplitOn(appName, ' ') + SplitOn(category, ' ') + CommonKeywords
  }

  /** `text` is related to some word of the noise vocabulary. */
  predicate IsNoise(text: string, vocab: seq<string>) {
    exists w :: 0 <= w < |vocab| && ContainsWord(text, vocab[w])
  }

  /** `keywords[i]` is the first entry related to `word`. */
  predicate IsFirstMatch(word: string, keywords: seq<Keyword>, i: int) {
    && 0 <= i < |keywords|
    && ContainsWord(keywords[i].keyword, word)
    && forall j :: 0 <= j < i ==> !ContainsWord(keywords[j].keyword, word)
  }

  /** `foundMatchingKeyword(word:keywords:)`: the first keyword related to
      `word`, in list order, or nil when none is. */
  function FoundMatchingKeyword(word: string, keywords: seq<Keyword>): (r: Option<Keyword>)
    ensures r.None? <==> forall i :: 0 <= i < |keywords| ==> !ContainsWord(keywords[i].keyword, word)
    ensures r.Some? ==> exists i :: IsFirstMatch(word, keywords, i) && keywords[i] == r.value
  {
    if |keywords| == 0 then None
    else if ContainsWord(keywords[0].keyword, word) then
      assert IsFirstMatch(word, keywords, 0);
      Some(keywords[0])
    else
      var r := FoundMatchingKeyword(word, keywords[1..]);
      if r.Some? then
        var i :| IsFirstMatch(word, keywords[1..], i) && keywords[1..][i] == r.value;
        assert IsFirstMatch(word, keywords, i + 1);
        r
      else
        r
  }

  /** Number of entries of `ks` whose text is `text`. */
  function CountText(ks: seq<Keyword>, text: string): nat {
    if |ks| == 0 then 0 else (if ks[0].keyword == text then 1 else 0) + CountText(ks[1..], text)
  }

  /** The `checkSimilar` loop from position `i` on: it walks a snapshot of
      the keywords and, at every position whose entry has the text `text`,
      calls `remove(at:)` with that ORIGINAL position on the copy being
      shrunk; an index past the copy's end traps. */
  function RemoveAtStaleIndices(snapshot: seq<Keyword>, text: string, i: nat, current: seq<Keyword>): (r: Outcome<seq<Keyword>>)
    requires i <= |snapshot|
    ensures r.Returned? ==> multiset(r.value) <= multiset(current)
    ensures r.Returned? ==> |r.value| + CountText(snapshot[i..], text) == |current|
    decreases |snapshot| - i
  {
    assert snapshot[i..] == if i < |snapshot| then [snapshot[i]] + snapshot[i + 1..] else [];
    if i == |snapshot| then Returned(current)
    else if snapshot[i].keyword == text then
      if i < |current| then
        assert current == current[..i] + [current[i]] + current[i + 1..];
        RemoveAtStaleIndices(snapshot, text, i + 1, current[..i] + current[i + 1..])
      else Trapped
    else RemoveAtStaleIndices(snapshot, text, i + 1, current)
  }

  /** `checkSimilar` for the keyword text `text`. */
  function CheckSimilar(keywords: seq<Keyword>, text: string): Outcome<seq<Keyword>> {
    RemoveAtStaleIndices(keywords, text, 0, keywords)
  }

  predicate DistinctTexts(ks: seq<Keyword>) {
    forall i, j :: 0 <= i < j < |ks| ==> ks[i].keyword != ks[j].keyword
  }

  /** The keywords other than `ks[j]`. */
  function Rest(ks: seq<Keyword>, j: nat): seq<Keyword>
    requires j < |ks|
  {
    ks[..j] + ks[j + 1..]
  }

  lemma {:induction false} StaleRemovalNoMoreMatches(snapshot: seq<Keyword>, text: string, i: nat, current: seq<Keyword>)
    requires i <= |snapshot|
    requires forall k :: i <= k < |snapshot| ==> snapshot[k].keyword != text
    ensures RemoveAtStaleIndices(snapshot, text, i, current) == Returned(current)
    decreases |snapshot| - i
  {
    if i < |snapshot| {
      StaleRemovalNoMoreMatches(snapshot, text, i + 1, current);
    }
  }

  lemma {:induction false} StaleRemovalBeforeMatch(ks: seq<Keyword>, j: nat, i: nat)
    requires DistinctTexts(ks) && i <= j < |ks|
    ensures RemoveAtStaleIndices(ks, ks[j].keyword, i, ks) == Returned(Rest(ks, j))
    decreases j - i
  {
    if i < j {
      StaleRemovalBeforeMatch(ks, j, i + 1);
    } else {
      StaleRemovalNoMoreMatches(ks, ks[j].keyword, j + 1, Rest(ks, j));
    }
  }

  /** With distinct texts, `checkSimilar` is the input with exactly the
      current entry removed. */
  lemma CheckSimilarWhenDistinct(ks: seq<Keyword>, j: nat)
    requires j < |ks|
    ensures DistinctTexts(ks) ==> CheckSimilar(ks, ks[j].keyword) == Returned(Rest(ks, j))
  {
    if DistinctTexts(ks) {
      StaleRemovalBeforeMatch(ks, j, 0);
    }
  }

  /** A text that no entry carries leaves `checkSimilar` equal to the input. */
  lemma CheckSimilarOfAbsentText(ks: seq<Keyword>, text: string)
    requires forall k :: 0 <= k < |ks| ==> ks[k].keyword != text
    ensures CheckSimilar(ks, text) == Returned(ks)
  {
    StaleRemovalNoMoreMatches(ks, text, 0, ks);
  }

  /** Two entries with the same text at the end of the list: the second
      `remove(at: 1)` hits a one-element copy and traps. */
  lemma CheckSimilarTrapsOnTrailingDuplicate(a: Keyword, b: Keyword)
    requires a.keyword == b.keyword
    ensures CheckSimilar([a, b], a.keyword) == Trapped
  {
    var s := [a, b];
    assert s[..0] + s[1..] == [b];
    assert RemoveAtStaleIndices(s, a.keyword, 1, [b]) == Trapped;
  }

  /** With the texts `[t, t, u]`, the second removal hits the stale index 1
      and removes `u`, so the second `t` stays in its own `checkSimilar` and
      the entry would be merged with itself. */
  lemma CheckSimilarKeepsCurrentOnDuplicate(a: Keyword, b: Keyword, c: Keyword)
    requires a.keyword == b.keyword && c.keyword != a.keyword
    ensures CheckSimilar([a, b, c], a.keyword) == Returned([b])
  {
    var s := [a, b, c];
    assert s[..0] + s[1..] == [b, c];
    assert [b, c][..1] + [b, c][2..] == [b];
    assert RemoveAtStaleIndices(s, a.keyword, 3, [b]) == Returned([b]);
    assert RemoveAtStaleIndices(s, a.keyword, 2, [b]) == Returned([b]);
    assert RemoveAtStaleIndices(s, a.keyword, 1, [b, c]) == Returned([b]);
  }

  // ---- Reference definition of the consolidation (distinct texts) ----

  /** The entry merged into `ks[j]`: the first other entry related to it. */
  function MatchOf(ks: seq<Keyword>, j: nat): Option<Keyword>
    requires j < |ks|
  {
    FoundMatchingKeyword(ks[j].keyword, Rest(ks, j))
  }

  /** The match of every position. */
  function Matches(ks: seq<Keyword>): (ms: seq<Option<Keyword>>)
    ensures |ms| == |ks| && forall j :: 0 <= j < |ks| ==> ms[j] == MatchOf(ks, j)
  {
    seq(|ks|, j requires 0 <= j < |ks| => MatchOf(ks, j))
  }

  /** Texts of the matches among the first `j` entries of `ms`, in order. */
  function AbsorbedTexts(ms: seq<Option<Keyword>>, j: nat): seq<string>
    requires j <= |ms|
  {
    if j == 0 then []
    else AbsorbedTexts(ms, j - 1) + (if ms[j - 1].Some? then [ms[j - 1].value.keyword] else [])
  }

  /** Texts recorded as absorbed by the iterations before `j`, in order. */
  function AbsorbedBefore(ks: seq<Keyword>, j: nat): seq<string>
    requires j <= |ks|
  {
    AbsorbedTexts(Matches(ks), j)
  }

  /** `ks[j]` is displayed: it is no noise and no earlier iteration absorbed its text. */
  predicate Kept(ks: seq<Keyword>, vocab: seq<string>, j: nat)
    requires j < |ks|
  {
    !IsNoise(ks[j].keyword, vocab) && ks[j].keyword !in AbsorbedBefore(ks, j)
  }

  /** Position in `ks` of the entry at position `i` of `Rest(ks, j)`. */
  function RestPosition(ks: seq<Keyword>, j: nat, i: nat): (p: nat)
    requires j < |ks| && i < |ks| - 1
    ensures p < |ks| && p != j && Rest(ks, j)[i] == ks[p]
    ensures i < j ==> p == i
    ensures i >= j ==> p == i + 1
  {
    if i < j then i else i + 1
  }

  /** `ks[j]` with the counts of its match, read from the ORIGINAL list. */
  function Emitted(ks: seq<Keyword>, j: nat): Keyword
    requires j < |ks|
  {
    match MatchOf(ks, j)
    case None => ks[j]
    case Some(m) => AddSentiments(ks[j], m)
  }

  /** The kept entries among the first `n`, each merged, in input order. */
  function Consolidated(ks: seq<Keyword>, vocab: seq<string>, n: nat): seq<Keyword>
    requires n <= |ks|
  {
    if n == 0 then []
    else Consolidated(ks, vocab, n - 1) + (if Kept(ks, vocab, n - 1) then [Emitted(ks, n - 1)] else [])
  }

  /** With distinct texts, the keyword displayed for position `j` carries its
      own counts plus, at most, the counts of ONE other original entry: the
      first entry after skipping `ks[j]` whose text is related to it. */
  lemma MergedWithFirstRelatedOther(ks: seq<Keyword>, j: nat)
    requires DistinctTexts(ks) && j < |ks|
    ensures Emitted(ks, j).keyword == ks[j].keyword
    ensures MatchOf(ks, j).None? ==>
      Emitted(ks, j) == ks[j] &&
      forall p :: 0 <= p < |ks| && p != j ==> !ContainsWord(ks[p].keyword, ks[j].keyword)
    ensures MatchOf(ks, j).Some? ==>
      exists m :: && 0 <= m < |ks| && m != j && MatchOf(ks, j).value == ks[m]
                  && ContainsWord(ks[m].keyword, ks[j].keyword)
                  && (forall p :: 0 <= p < m && p != j ==> !ContainsWord(ks[p].keyword, ks[j].keyword))
                  && CountsOf(Emitted(ks, j)) == CountsOf(ks[j]).Plus(CountsOf(ks[m]))
  {
    var word := ks[j].keyword;
    var rest := Rest(ks, j);
    var found := FoundMatchingKeyword(word, rest);
    if found.Some? {
      var i :| IsFirstMatch(word, rest, i) && rest[i] == found.value;
      var m := RestPosition(ks, j, i);
      forall p | 0 <= p < m && p != j
        ensures !ContainsWord(ks[p].keyword, word)
      {
        var q := if p < j then p else p - 1;
        assert RestPosition(ks, j, q) == p;
      }
    } else {
      forall p | 0 <= p < |ks| && p != j
        ensures !ContainsWord(ks[p].keyword, word)
      {
        var q := if p < j then p else p - 1;
        assert RestPosition(ks, j, q) == p;
      }
    }
  }

  /** A text absorbed at position `i` stays in the absorbed list of every later position. */
  lemma {:induction false} AbsorbedPersists(ms: seq<Option<Keyword>>, i: nat, j: nat)
    requires i < j <= |ms| && ms[i].Some?
    ensures ms[i].value.keyword in AbsorbedTexts(ms, j)
    decreases j
  {
    if i < j - 1 {
      AbsorbedPersists(ms, i, j - 1);
    }
  }

  /** Every displayed entry is the merged form of some kept input position. */
  lemma {:induction false} ConsolidatedMembers(ks: seq<Keyword>, vocab: seq<string>, n: nat)
    requires n <= |ks|
    ensures |Consolidated(ks, vocab, n)| <= n
    ensures forall e :: e in Consolidated(ks, vocab, n) ==>
      exists j :: 0 <= j < n && Kept(ks, vocab, j) && e == Emitted(ks, j)
  {
    if n > 0 {
      ConsolidatedMembers(ks, vocab, n - 1);
      var prev := Consolidated(ks, vocab, n - 1);
      var last := if Kept(ks, vocab, n - 1) then [Emitted(ks, n - 1)] else [];
      assert Consolidated(ks, vocab, n) == prev + last;
      forall e | e in prev + last
        ensures exists j :: 0 <= j < n && Kept(ks, vocab, j) && e == Emitted(ks, j)
      {
        if e !in prev {
          assert Kept(ks, vocab, n - 1) && e == Emitted(ks, n - 1);
        }
      }
    }
  }

  /** An entry that an earlier position absorbed is never displayed, even
      though its counts were merged into that earlier entry. */
  lemma AbsorbedNeverShown(ks: seq<Keyword>, vocab: seq<string>, i: nat, m: nat)
    requires DistinctTexts(ks) && i < m < |ks|
    requires MatchOf(ks, i) == Some(ks[m])
    ensures forall e :: e in Consolidated(ks, vocab, |ks|) ==> e.keyword != ks[m].keyword
  {
    ConsolidatedMembers(ks, vocab, |ks|);
    forall e | e in Consolidated(ks, vocab, |ks|)
      ensures e.keyword != ks[m].keyword
    {
      var j :| 0 <= j < |ks| && Kept(ks, vocab, j) && e == Emitted(ks, j);
      MergedWithFirstRelatedOther(ks, j);
      if j == m {
        AbsorbedPersists(Matches(ks), i, m);
      }
    }
  }

  /** A keyword related to a word of the app's name, its category or "app"
      is never displayed. */
  lemma NoiseNeverShown(ks: seq<Keyword>, vocab: seq<string>, j: nat)
    requires j < |ks| && IsNoise(ks[j].keyword, vocab) && DistinctTexts(ks)
    ensures forall e :: e in Consolidated(ks, vocab, |ks|) ==> e.keyword != ks[j].keyword
  {
    ConsolidatedMembers(ks, vocab, |ks|);
    forall e | e in Consolidated(ks, vocab, |ks|)
      ensures e.keyword != ks[j].keyword
    {
      var p :| 0 <= p < |ks| && Kept(ks, vocab, p) && e == Emitted(ks, p);
      MergedWithFirstRelatedOther(ks, p);
    }
  }

  /** Where each displayed keyword came from: strictly increasing input
      positions, the same text, and the entry's own counts plus at most the
      counts of one input entry. */
  ghost predicate Provenance(out: seq<Keyword>, ks: seq<Keyword>, idx: seq<nat>) {
    && |idx| == |out|
    && (forall t :: 0 <= t < |idx| ==> idx[t] < |ks|)
    && (forall s, t :: 0 <= s < t < |idx| ==> idx[s] < idx[t])
    && forall t :: 0 <= t < |idx| ==>
         && out[t].keyword == ks[idx[t]].keyword
         && (|| CountsOf(out[t]) == CountsOf(ks[idx[t]])
             || exists m :: 0 <= m < |ks| && CountsOf(out[t]) == CountsOf(ks[idx[t]]).Plus(CountsOf(ks[m])))
  }

  lemma ProvenanceExtend(out: seq<Keyword>, ks: seq<Keyword>, idx: seq<nat>, j: nat, e: Keyword, m: nat)
    requires Provenance(out, ks, idx)
    requires forall t :: 0 <= t < |idx| ==> idx[t] < j
    requires j < |ks| && m < |ks| && e.keyword == ks[j].keyword
    requires CountsOf(e) == CountsOf(ks[j]) || CountsOf(e) == CountsOf(ks[j]).Plus(CountsOf(ks[m]))
    ensures Provenance(out + [e], ks, idx + [j])
  {
    var out', idx' := out + [e], idx + [j];
    forall t | 0 <= t < |idx'|
      ensures && out'[t].keyword == ks[idx'[t]].keyword
              && (|| CountsOf(out'[t]) == CountsOf(ks[idx'[t]])
                  || exists m :: 0 <= m < |ks| && CountsOf(out'[t]) == CountsOf(ks[idx'[t]]).Plus(CountsOf(ks[m])))
    {
      if t < |idx| {
        assert out'[t] == out[t] && idx'[t] == idx[t];
      }
    }
  }

  /** The `for word in appInfo` loop: is `text` related to some word of
      `appInfo`? It stops at the first related word. */
  method FoundSimilarWord(text: string, appInfo: seq<string>) returns (found: bool)
    ensures found <==> IsNoise(text, appInfo)
  {
    found := false;
    var w := 0;
    while w < |appInfo|
      invariant 0 <= w <= |appInfo|
      invariant !found
      invariant forall v :: 0 <= v < w ==> !ContainsWord(text, appInfo[v])
    {
      if ContainsWord(text, appInfo[w]) {
        found := true;
        return;
      }
      w := w + 1;
    }
  }

  /** The loop state after the first `j` keywords agrees with the reference. */
  ghost predicate Tracks(ks: seq<Keyword>, vocab: seq<string>, j: nat, display: seq<Keyword>, similar: seq<string>)
    requires j <= |ks|
  {
    display == Consolidated(ks, vocab, j) && similar == AbsorbedBefore(ks, j)
  }

  /** One iteration of the consolidation loop, on distinct texts, moves the
      displayed list and the absorbed texts from position `j` to `j + 1`. */
  lemma DistinctStep(ks: seq<Keyword>, vocab: seq<string>, j: nat, display: seq<Keyword>, similar: seq<string>,
                     hidden: bool, merged: Keyword)
    requires DistinctTexts(ks) && j < |ks|
    requires Tracks(ks, vocab, j, display, similar)
    requires hidden <==> IsNoise(ks[j].keyword, vocab) || ks[j].keyword in similar
    requires merged == Emitted(ks, j)
    ensures Tracks(ks, vocab, j + 1, if hidden then display else display + [merged],
                   similar + (if MatchOf(ks, j).Some? then [MatchOf(ks, j).value.keyword] else []))
  {
  }

  /** What one pass of the loop body leaves behind: whether the keyword is
      displayed, the keyword after a possible merge, and the absorbed texts. */
  datatype Visit = Visit(shown: bool, keyword: Keyword, similarKeywords: seq<string>)

  /** What one pass of the loop body promises about `ks[j]`: the text is
      kept, a displayed keyword is not noise, the counts are its own or its own
      plus those of one entry, and on distinct texts the visit agrees with
      `Emitted`, `Kept` and the absorbed texts. */
  ghost predicate GoodVisit(ks: seq<Keyword>, j: nat, vocab: seq<string>, similar: seq<string>, v: Visit)
    requires j < |ks|
  {
    && v.keyword.keyword == ks[j].keyword
    && (v.shown ==> !IsNoise(ks[j].keyword, vocab))
    && (|| CountsOf(v.keyword) == CountsOf(ks[j])
        || exists m :: 0 <= m < |ks| && CountsOf(v.keyword) == CountsOf(ks[j]).Plus(CountsOf(ks[m])))
    && (DistinctTexts(ks) ==> v.keyword == Emitted(ks, j))
    && (DistinctTexts(ks) ==> v.shown == (!IsNoise(ks[j].keyword, vocab) && ks[j].keyword !in similar))
    && (DistinctTexts(ks) ==>
          v.similarKeywords == similar + (if MatchOf(ks, j).Some? then [MatchOf(ks, j).value.keyword] else []))
  }

  /** The body of `for var keyword in keywords` for `keywords[j]`. */
  method VisitKeyword(keywords: seq<Keyword>, j: nat, appInfo: seq<string>, similarKeywords: seq<string>)
    returns (r: Outcome<Visit>)
    requires j < |keywords|
    ensures r.Trapped? ==> !DistinctTexts(keywords)
    ensures DistinctTexts(keywords) ==> r.Returned?
    ensures r.Returned? ==> GoodVisit(keywords, j, appInfo, similarKeywords, r.value)
  {
    var keyword := keywords[j];
    CheckSimilarWhenDistinct(keywords, j);
    var checkSimilar := CheckSimilar(keywords, keyword.keyword);
    if checkSimilar.Trapped? {
      return Trapped;
    }
    var foundSimilarWord := FoundSimilarWord(keyword.keyword, appInfo);
    if keyword.keyword in similarKeywords {
      foundSimilarWord := true;
    }
    var similar := FoundMatchingKeyword(keyword.keyword, checkSimilar.value);
    var absorbed := similarKeywords;
    if similar.Some? {
      assert similar.value in multiset(keywords) by {
        ghost var i :| IsFirstMatch(keyword.keyword, checkSimilar.value, i) && checkSimilar.value[i] == similar.value;
        assert similar.value in multiset(checkSimilar.value);
      }
      ghost var m :| 0 <= m < |keywords| && keywords[m] == similar.value;
      absorbed := absorbed + [similar.value.keyword];
      keyword := AddSentiments(keyword, similar.value);
      assert CountsOf(keyword) == CountsOf(keywords[j]).Plus(CountsOf(keywords[m]));
    }
    return Returned(Visit(!foundSimilarWord, keyword, absorbed));
  }

  /** Everything the consolidation loop keeps true after the first `j` keywords. */
  ghost predicate LoopInv(ks: seq<Keyword>, vocab: seq<string>, j: nat, display: seq<Keyword>,
                          similar: seq<string>, idx: seq<nat>)
  {
    && j <= |ks|
    && |display| <= j
    && Provenance(display, ks, idx)
    && (forall t :: 0 <= t < |idx| ==> idx[t] < j)
    && (forall t :: 0 <= t < |display| ==> !IsNoise(display[t].keyword, vocab))
    && (DistinctTexts(ks) ==> Tracks(ks, vocab, j, display, similar))
  }

  lemma LoopStep(ks: seq<Keyword>, vocab: seq<string>, j: nat, display: seq<Keyword>,
                 similar: seq<string>, idx: seq<nat>, v: Visit)
    requires LoopInv(ks, vocab, j, display, similar, idx) && j < |ks|
    requires GoodVisit(ks, j, vocab, similar, v)
    ensures LoopInv(ks, vocab, j + 1, if v.shown then display + [v.keyword] else display,
                    v.similarKeywords, if v.shown then idx + [j] else idx)
  {
    if DistinctTexts(ks) {
      DistinctStep(ks, vocab, j, display, similar, !v.shown, v.keyword);
    }
    if v.shown {
      var m :| 0 <= m < |ks| &&
        (CountsOf(v.keyword) == CountsOf(ks[j]) || CountsOf(v.keyword) == CountsOf(ks[j]).Plus(CountsOf(ks[m])));
      ProvenanceExtend(display, ks, idx, j, v.keyword, m);
    }
  }

  /** What the loop invariant gives once every keyword has been visited. */
  lemma LoopDone(ks: seq<Keyword>, vocab: seq<string>, display: seq<Keyword>, similar: seq<string>, idx: seq<nat>)
    requires LoopInv(ks, vocab, |ks|, display, similar, idx)
    ensures DistinctTexts(ks) ==> display == Consolidated(ks, vocab, |ks|)
    ensures |display| <= |ks|
    ensures exists idx' :: Provenance(display, ks, idx')
    ensures forall t :: 0 <= t < |display| ==> !IsNoise(display[t].keyword, vocab)
  {
  }

  /** One pass of the loop: visit `keywords[j]` and extend the display and
      the absorbed texts. */
  method LoopBody(keywords: seq<Keyword>, j: nat, appInfo: seq<string>, display: seq<Keyword>,
                  similarKeywords: seq<string>, ghost idx: seq<nat>)
    returns (r: Outcome<(seq<Keyword>, seq<string>)>, ghost idx': seq<nat>)
    requires LoopInv(keywords, appInfo, j, display, similarKeywords, idx) && j < |keywords|
    ensures r.Trapped? ==> !DistinctTexts(keywords)
    ensures r.Returned? ==> LoopInv(keywords, appInfo, j + 1, r.value.0, r.value.1, idx')
  {
    var visit := VisitKeyword(keywords, j, appInfo, similarKeywords);
    if visit.Trapped? {
      return Trapped, idx;
    }
    var v := visit.value;
    LoopStep(keywords, appInfo, j, display, similarKeywords, idx, v);
    if v.shown {
      return Returned((display + [v.keyword], v.similarKeywords)), idx + [j];
    }
    return Returned((display, v.similarKeywords)), idx;
  }

  /** `removeSimilarKeywords(appName:keywords:)`, with the controller's
      `appCategory` as a parameter. */
  method RemoveSimilarKeywords(appName: string, appCategory: Option<string>, keywords: seq<Keyword>)
    returns (r: Outcome<seq<Keyword>>)
    ensures appCategory.None? ==> r == Returned([])
    ensures appCategory.Some? && DistinctTexts(keywords) ==>
      r == Returned(Consolidated(keywords, NoiseVocabulary(appName, appCategory.value), |keywords|))
    ensures r.Returned? ==> |r.value| <= |keywords|
    ensures r.Returned? ==> exists idx :: Provenance(r.value, keywords, idx)
    ensures r.Returned? && appCategory.Some? ==>
      forall t :: 0 <= t < |r.value| ==> !IsNoise(r.value[t].keyword, NoiseVocabulary(appName, appCategory.value))
  {
    if appCategory.None? {
      assert Provenance([], keywords, []);
      return Returned([]);
    }
    var category := appCategory.value;
    var display: seq<Keyword> := [];
    var similarKeywords: seq<string> := [];
    var appInfo := NoiseVocabulary(appName, category);
    ghost var idx: seq<nat> := [];

    var j: nat := 0;
    while j < |keywords|
      invariant LoopInv(keywords, appInfo, j, display, similarKeywords, idx)
    {
      var next;
      next, idx := LoopBody(keywords, j, appInfo, display, similarKeywords, idx);
      if next.Trapped? {
        return Trapped;
      }
      display, similarKeywords := next.value.0, next.value.1;
      j := j + 1;
    }
    LoopDone(keywords, appInfo, display, similarKeywords, idx);
    return Returned(display);
  }
}

=== FILE: discovery.dfy ===
/** Decoding of the search service's responses into the values the
    screens show, and the completion-handler calls each decoder makes. */
module Discovery {
  import opened Wrappers
  import opened Numbers
  import opened Json
  import opened KeywordModel

  /** `DiscoveryErrors`. */
  datatype DiscoveryError = NoEnvironments | NoCollections | UnexpectedJSON | StringToIntFailed | Other(message: string)

  /** `errorMessage`: a fixed sentence per fixed case, and the carried text
      for `.other`. */
  function ErrorMessage(e: DiscoveryError): (m: string)
    ensures e.Other? ==> m == e.message
    ensures !e.Other? ==> |m| > 0 && m[|m| - 1] == '.'
  {
    match e
    case NoEnvironments => "No environments found."
    case NoCollections => "No collections found."
    case UnexpectedJSON => "Unexpected JSON response."
    case StringToIntFailed => "Unable to convert String to Int."
    case Other(message) => message
  }

  /** The fixed messages tell the fixed cases apart. */
  lemma FixedMessagesDistinct(e1: DiscoveryError, e2: DiscoveryError)
    requires !e1.Other? && !e2.Other? && e1 != e2
    ensures ErrorMessage(e1) != ErrorMessage(e2)
  {
    FourthLetter(e1);
    FourthLetter(e2);
  }

  /** The fourth letter of each fixed message differs from case to case. */
  lemma FourthLetter(e: DiscoveryError)
    requires !e.Other?
    ensures |ErrorMessage(e)| > 3
    ensures ErrorMessage(e)[3] == match e
      case NoEnvironments => 'e'
      case NoCollections => 'c'
      case UnexpectedJSON => 'x'
      case _ => 'b'
  {
    match e
    case NoEnvironments =>
    case NoCollections =>
    case UnexpectedJSON =>
    case StringToIntFailed =>
  }

  /** Platform services the decoders rely on: the text of a fractional
      number, `Double(text)`, and the date reformatting of a review. */
  datatype Platform = Platform(realText: real -> string, parseDouble: string -> Option<real>, formatDate: string -> string)

  /** The success values reported, in order. */
  function Successes<T, E>(cs: seq<Callback<T, E>>): seq<T> {
    if |cs| == 0 then []
    else (if cs[0].Success? then [cs[0].value] else []) + Successes(cs[1..])
  }

  /** The number of failures reported. */
  function FailureCount<T, E>(cs: seq<Callback<T, E>>): nat {
    if |cs| == 0 then 0 else (if cs[0].Failure? then 1 else 0) + FailureCount(cs[1..])
  }

  lemma {:induction false} CallbacksAppend<T, E>(a: seq<Callback<T, E>>, b: seq<Callback<T, E>>)
    ensures Successes(a + b) == Successes(a) + Successes(b)
    ensures FailureCount(a + b) == FailureCount(a) + FailureCount(b)
    decreases |a|
  {
    if |a| > 0 {
      CallbacksAppend(a[1..], b);
      assert (a + b)[1..] == a[1..] + b;
      assert (a + b)[0] == a[0];
      var head := if a[0].Success? then [a[0].value] else [];
      assert head + (Successes(a[1..]) + Successes(b)) == (head + Successes(a[1..])) + Successes(b);
    } else {
      assert a + b == b;
    }
  }

  lemma CallbacksOfOne<T, E>(c: Callback<T, E>)
    ensures Successes([c]) == if c.Success? then [c.value] else []
    ensures FailureCount([c]) == if c.Failure? then 1 else 0
  {
    assert [c][1..] == [];
  }

  /** The successive non-empty prefixes of `xs`. */
  function Prefixes<T>(xs: seq<T>): (ps: seq<seq<T>>)
    ensures |ps| == |xs|
    ensures forall i :: 0 <= i < |xs| ==> ps[i] == xs[..i + 1]
  {
    seq(|xs|, i requires 0 <= i < |xs| => xs[..i + 1])
  }

  lemma PrefixesSnoc<T>(xs: seq<T>, x: T)
    ensures Prefixes(xs + [x]) == Prefixes(xs) + [xs + [x]]
  {
    var l, r := Prefixes(xs + [x]), Prefixes(xs) + [xs + [x]];
    forall i | 0 <= i < |l|
      ensures l[i] == r[i]
    {
      if i < |xs| {
        assert (xs + [x])[..i + 1] == xs[..i + 1];
      } else {
        assert (xs + [x])[..i + 1] == xs + [x];
      }
    }
  }

  /** The callbacks one row of a progressive decoder makes: a failure
      when the row held a bad count, then a success with everything
      decoded so far. */
  function Report<T>(soFar: seq<T>, failed: bool): seq<Callback<seq<T>, DiscoveryError>> {
    (if failed then [Failure(StringToIntFailed)] else []) + [Success(soFar)]
  }

  /** After the rows decoded to `expected`, with `failing` of them holding a
      bad count, the successes carry the prefixes of `expected`, one
      failure per failing row was reported, and only `stringToIntFailed`. */
  ghost predicate Reporting<T>(expected: seq<T>, failing: nat, soFar: seq<T>, events: seq<Callback<seq<T>, DiscoveryError>>) {
    && soFar == expected
    && Successes(events) == Prefixes(soFar)
    && FailureCount(events) == failing
    && (forall e :: e in events && e.Failure? ==> e.error == StringToIntFailed)
    && (|events| == 0 <==> |soFar| == 0)
  }

  lemma ReportingStep<T>(expected: seq<T>, failing: nat, soFar: seq<T>, events: seq<Callback<seq<T>, DiscoveryError>>, x: T, failed: bool)
    requires Reporting(expected, failing, soFar, events)
    ensures Reporting(expected + [x], failing + (if failed then 1 else 0), soFar + [x], events + Report(soFar + [x], failed))
  {
    var step := Report(soFar + [x], failed);
    CallbacksAppend(events, step);
    CallbacksOfOne<seq<T>, DiscoveryError>(Success(soFar + [x]));
    if failed {
      CallbacksAppend([Failure(StringToIntFailed)], [Success(soFar + [x])]);
      CallbacksOfOne<seq<T>, DiscoveryError>(Failure(StringToIntFailed));
    } else {
      assert step == [Success(soFar + [x])];
    }
    PrefixesSnoc(soFar, x);
  }

  /** The results under `json["aggregations"][0]`, one level down per
      further index. */
  function Results(json: Json): seq<Json> {
    Elements(Get(At(Get(json, "aggregations"), 0), "results"))
  }

  function NestedResults(json: Json): seq<Json> {
    Elements(Get(At(Get(At(Get(json, "aggregations"), 0), "aggregations"), 0), "results"))
  }

  // ---------------------------------------------------------------------
  // App names

  /** `queryForAppNames`' success handler. `response` is `None` when the
      response cannot be serialised again. */
  method QueryForAppNames(response: Option<Json>, platform: Platform)
    returns (events: seq<Callback<seq<string>, DiscoveryError>>)
    ensures response.None? ==> events == [Failure(UnexpectedJSON)]
    ensures response.Some? ==> |events| == 1 && events[0].Success?
    ensures response.Some? ==>
              var results := Results(response.value);
              |events[0].value| == |results| &&
              forall i :: 0 <= i < |results| ==> events[0].value[i] == StringValue(Get(results[i], "key"), platform.realText)
  {
    if response.None? {
      return [Failure(UnexpectedJSON)];
    }
    var appNameResults := Results(response.value);
    var apps: seq<string> := [];
    for i := 0 to |appNameResults|
      invariant |apps| == i
      invariant forall j :: 0 <= j < i ==> apps[j] == StringValue(Get(appNameResults[j], "key"), platform.realText)
    {
      apps := apps + [StringValue(Get(appNameResults[i], "key"), platform.realText)];
    }
    events := [Success(apps)];
  }

  // ---------------------------------------------------------------------
  // Sentiment counts of one aggregation bucket

  /** `Int(sentiment["matching_results"].stringValue)`. */
  function MatchingResults(entry: Json, platform: Platform): Option<int> {
    SwiftInt(StringValue(Get(entry, "matching_results"), platform.realText))
  }

  /** `sentiment["key"] == polarity`: the key is that very string. */
  predicate KeyIs(entry: Json, polarity: string) {
    Get(entry, "key") == JString(polarity)
  }

  /** Position of the first entry whose count does not parse, or the
      number of entries when all do. */
  function FirstUnparsable(entries: seq<Json>, platform: Platform): (k: nat)
    ensures k <= |entries|
    ensures forall i :: 0 <= i < k ==> MatchingResults(entries[i], platform).Some?
    ensures k < |entries| ==> MatchingResults(entries[k], platform).None?
  {
    if |entries| == 0 || MatchingResults(entries[0], platform).None? then 0
    else
      var k := FirstUnparsable(entries[1..], platform);
      assert forall i :: 1 <= i <= k ==> entries[i] == entries[1..][i - 1];
      1 + k
  }

  /** Reference: the count of the last entry labelled `polarity`, or 0 when
      no entry is. */
  function LastCount(entries: seq<Json>, polarity: string, platform: Platform): int
    requires forall i :: 0 <= i < |entries| ==> MatchingResults(entries[i], platform).Some?
  {
    if |entries| == 0 then 0
    else
      var last := entries[|entries| - 1];
      if KeyIs(last, polarity) then MatchingResults(last, platform).value
      else LastCount(entries[..|entries| - 1], polarity, platform)
  }

  /** Reference: the three counts read from the entries before the first
      unparsable one. */
  function BucketCounts(entries: seq<Json>, platform: Platform): Tally {
    var read := entries[..FirstUnparsable(entries, platform)];
    Tally(LastCount(read, "positive", platform), LastCount(read, "neutral", platform), LastCount(read, "negative", platform))
  }

  /** A polarity no entry carries keeps its default of 0. */
  lemma {:induction false} LastCountOfAbsentLabel(entries: seq<Json>, polarity: string, platform: Platform)
    requires forall i :: 0 <= i < |entries| ==> MatchingResults(entries[i], platform).Some?
    requires forall i :: 0 <= i < |entries| ==> !KeyIs(entries[i], polarity)
    ensures LastCount(entries, polarity, platform) == 0
    decreases |entries|
  {
    if |entries| > 0 {
      LastCountOfAbsentLabel(entries[..|entries| - 1], polarity, platform);
    }
  }

  /** Counts that are JSON integers in `Int`'s range always parse. */
  lemma IntegerCountsParse(entries: seq<Json>, platform: Platform)
    requires forall i :: 0 <= i < |entries| ==>
               Get(entries[i], "matching_results").JInt? &&
               IntMin <= Get(entries[i], "matching_results").i <= IntMax
    ensures FirstUnparsable(entries, platform) == |entries|
    ensures forall i :: 0 <= i < |entries| ==>
              MatchingResults(entries[i], platform) == Some(Get(entries[i], "matching_results").i)
  {
    forall i | 0 <= i < |entries|
      ensures MatchingResults(entries[i], platform) == Some(Get(entries[i], "matching_results").i)
    {
      SwiftIntOfDecimal(Get(entries[i], "matching_results").i);
    }
  }

  /** The counts read from the first `i` entries, all of which parse. */
  function PrefixCounts(entries: seq<Json>, i: nat, platform: Platform): Tally
    requires i <= FirstUnparsable(entries, platform)
  {
    var read := entries[..i];
    Tally(LastCount(read, "positive", platform), LastCount(read, "neutral", platform), LastCount(read, "negative", platform))
  }

  /** One entry read into the counts: each of the three labels it carries
      takes its count. */
  function Absorb(counts: Tally, entry: Json, n: int): Tally {
    var c1 := if KeyIs(entry, "positive") then counts.(positive := n) else counts;
    var c2 := if KeyIs(entry, "neutral") then c1.(neutral := n) else c1;
    if KeyIs(entry, "negative") then c2.(negative := n) else c2
  }

  lemma PrefixCountsStep(entries: seq<Json>, i: nat, platform: Platform)
    requires i < FirstUnparsable(entries, platform)
    ensures PrefixCounts(entries, i + 1, platform) ==
            Absorb(PrefixCounts(entries, i, platform), entries[i], MatchingResults(entries[i], platform).value)
  {
    assert entries[..i + 1][..i] == entries[..i];
  }

  /** The inner loop over one bucket's entries: each entry's count is read;
      the first that is not an integer stops the loop and reports
      `stringToIntFailed`; otherwise a "positive", "neutral" or "negative"
      key sets that count. */
  method DecodeSentiments(entries: seq<Json>, platform: Platform) returns (counts: Tally, failed: bool)
    ensures failed <==> FirstUnparsable(entries, platform) < |entries|
    ensures counts == BucketCounts(entries, platform)
  {
    var k := FirstUnparsable(entries, platform);
    counts := Zero;
    failed := false;
    var i := 0;
    while i < |entries|
      invariant 0 <= i <= k
      invariant !failed
      invariant counts == PrefixCounts(entries, i, platform)
      decreases |entries| - i
    {
      var matchingResults := MatchingResults(entries[i], platform);
      if matchingResults.None? {
        failed := true;
        break;
      }
      PrefixCountsStep(entries, i, platform);
      ghost var before := counts;
      if KeyIs(entries[i], "positive") {
        counts := counts.(positive := matchingResults.value);
      }
      if KeyIs(entries[i], "neutral") {
        counts := counts.(neutral := matchingResults.value);
      }
      if KeyIs(entries[i], "negative") {
        counts := counts.(negative := matchingResults.value);
      }
      assert counts == Absorb(before, entries[i], matchingResults.value);
      i := i + 1;
    }
    assert i == k;
  }

  // ---------------------------------------------------------------------
  // Keywords and their sentiment

  /** Reference: the keyword one aggregation row decodes to. */
  function RowKeyword(row: Json, platform: Platform): (k: Keyword)
    ensures WellLabelled(k)
    ensures k.keyword == StringValue(Get(row, "key"), platform.realText)
    ensures CountsOf(k) == BucketCounts(Results(row), platform)
  {
    var counts := BucketCounts(Results(row), platform);
    Keyword(StringValue(Get(row, "key"), platform.realText),
            Sentiment("positive", counts.positive),
            Sentiment("neutral", counts.neutral),
            Sentiment("negative", counts.negative))
  }

  predicate RowFails(row: Json, platform: Platform) {
    FirstUnparsable(Results(row), platform) < |Results(row)|
  }

  function RowDecoder(platform: Platform): Json -> Keyword {
    row => RowKeyword(row, platform)
  }

  function RowKeywords(rows: seq<Json>, platform: Platform): (ks: seq<Keyword>)
    ensures |ks| == |rows|
    ensures forall i :: 0 <= i < |rows| ==> ks[i] == RowKeyword(rows[i], platform)
  {
    Map(rows, RowDecoder(platform))
  }

  /** Number of rows whose bucket holds an unparsable count. */
  function FailingRows(rows: seq<Json>, platform: Platform): nat {
    if |rows| == 0 then 0
    else FailingRows(rows[..|rows| - 1], platform) + (if RowFails(rows[|rows| - 1], platform) then 1 else 0)
  }

  /** One more row adds one to the failure count exactly when it fails. */
  lemma FailingRowsStep(rows: seq<Json>, i: nat, platform: Platform)
    requires i < |rows|
    ensures FailingRows(rows[..i + 1], platform) == FailingRows(rows[..i], platform) + (if RowFails(rows[i], platform) then 1 else 0)
  {
    var after := rows[..i + 1];
    assert after[..|after| - 1] == rows[..i];
    assert after[|after| - 1] == rows[i];
  }

  lemma KeywordRowsStep(rows: seq<Json>, i: nat, platform: Platform)
    requires i < |rows|
    ensures RowKeywords(rows[..i + 1], platform) == RowKeywords(rows[..i], platform) + [RowKeyword(rows[i], platform)]
  {
    MapSnoc(rows, i, RowDecoder(platform));
  }

  /** The body of `queryForKeywordsAndSentiment`'s loop for one row: its
      keyword, and whether a count in it failed to parse. */
  method DecodeRow(row: Json, platform: Platform) returns (k: Keyword, failed: bool)
    ensures k == RowKeyword(row, platform)
    ensures failed <==> RowFails(row, platform)
  {
    var counts;
    counts, failed := DecodeSentiments(Results(row), platform);
    k := Keyword(StringValue(Get(row, "key"), platform.realText),
                 Sentiment("positive", counts.positive),
                 Sentiment("neutral", counts.neutral),
                 Sentiment("negative", counts.negative));
  }

  /** `queryForKeywordsAndSentiment`'s success handler. For every row it
      decodes one keyword, reports `stringToIntFailed` first if the row
      held a bad count, then calls `success` with all keywords so far. */
  method QueryForKeywordsAndSentiment(response: Option<Json>, platform: Platform)
    returns (events: seq<Callback<seq<Keyword>, DiscoveryError>>)
    ensures response.None? ==> events == []
    ensures response.Some? ==>
              var rows := NestedResults(response.value);
              && Successes(events) == Prefixes(RowKeywords(rows, platform))
              && FailureCount(events) == FailingRows(rows, platform)
              && (forall e :: e in events && e.Failure? ==> e.error == StringToIntFailed)
              && (|events| == 0 <==> |rows| == 0)
  {
    events := [];
    if response.None? {
      return;
    }
    var keywordResults := NestedResults(response.value);
    var keywords: seq<Keyword> := [];
    for i := 0 to |keywordResults|
      invariant Reporting(RowKeywords(keywordResults[..i], platform), FailingRows(keywordResults[..i], platform), keywords, events)
    {
      var decodedKeyword, failed := DecodeRow(keywordResults[i], platform);
      KeywordRowsStep(keywordResults, i, platform);
      FailingRowsStep(keywordResults, i, platform);
      ReportingStep(RowKeywords(keywordResults[..i], platform), FailingRows(keywordResults[..i], platform),
                    keywords, events, decodedKeyword, failed);
      keywords := keywords + [decodedKeyword];
      events := events + Report(keywords, failed);
    }
    assert keywordResults[..|keywordResults|] == keywordResults;
  }

  // ---------------------------------------------------------------------
  // Sentiment over time

  /** One day of the sentiment graph. GraphSentiment's declaration is not
      part of this model; its fields are those its initializer is given. */
  datatype GraphSentiment = GraphSentiment(date: string, positiveSentiment: Sentiment, negativeSentiment: Sentiment)

  /** Reference: the graph point one time slice decodes to. */
  function SliceSentiment(slice: Json, platform: Platform): (g: GraphSentiment)
    ensures g.date == StringValue(Get(slice, "key_as_string"), platform.realText)
    ensures g.positiveSentiment == Sentiment("positive", BucketCounts(Results(slice), platform).positive)
    ensures g.negativeSentiment == Sentiment("negative", BucketCounts(Results(slice), platform).negative)
  {
    var counts := BucketCounts(Results(slice), platform);
    GraphSentiment(StringValue(Get(slice, "key_as_string"), platform.realText),
                   Sentiment("positive", counts.positive),
                   Sentiment("negative", counts.negative))
  }

  function SliceDecoder(platform: Platform): Json -> GraphSentiment {
    slice => SliceSentiment(slice, platform)
  }

  function SliceSentiments(slices: seq<Json>, platform: Platform): (gs: seq<GraphSentiment>)
    ensures |gs| == |slices|
    ensures forall i :: 0 <= i < |slices| ==> gs[i] == SliceSentiment(slices[i], platform)
  {
    Map(slices, SliceDecoder(platform))
  }

  lemma SliceRowsStep(slices: seq<Json>, i: nat, platform: Platform)
    requires i < |slices|
    ensures SliceSentiments(slices[..i + 1], platform) == SliceSentiments(slices[..i], platform) + [SliceSentiment(slices[i], platform)]
  {
    MapSnoc(slices, i, SliceDecoder(platform));
  }

  /** The body of `queryForSentiment`'s loop for one time slice: its graph
      point, and whether a count in it failed to parse. */
  method DecodeSlice(interval: Json, platform: Platform) returns (g: GraphSentiment, failed: bool)
    ensures g == SliceSentiment(interval, platform)
    ensures failed <==> RowFails(interval, platform)
  {
    var time := StringValue(Get(interval, "key_as_string"), platform.realText);
    var counts;
    counts, failed := DecodeSentiments(Results(interval), platform);
    g := GraphSentiment(time, Sentiment("positive", counts.positive), Sentiment("negative", counts.negative));
  }

  /** `queryForSentiment`'s success handler: the same per-row pattern as
      the keyword decoder, keeping only the positive and negative counts
      (a "neutral" entry is read, so a bad count there still fails, but
      its value is dropped). Nothing is reported when the response cannot
      be serialised again. */
  method QueryForSentiment(response: Option<Json>, platform: Platform)
    returns (events: seq<Callback<seq<GraphSentiment>, DiscoveryError>>)
    ensures response.None? ==> events == []
    ensures response.Some? ==>
              var slices := NestedResults(response.value);
              && Successes(events) == Prefixes(SliceSentiments(slices, platform))
              && FailureCount(events) == FailingRows(slices, platform)
              && (forall e :: e in events && e.Failure? ==> e.error == StringToIntFailed)
              && (|events| == 0 <==> |slices| == 0)
  {
    events := [];
    if response.None? {
      return;
    }
    var timeSlice := NestedResults(response.value);
    var graphSentiments: seq<GraphSentiment> := [];
    for i := 0 to |timeSlice|
      invariant Reporting(SliceSentiments(timeSlice[..i], platform), FailingRows(timeSlice[..i], platform), graphSentiments, events)
    {
      var graphSentiment, failed := DecodeSlice(timeSlice[i], platform);
      SliceRowsStep(timeSlice, i, platform);
      FailingRowsStep(timeSlice, i, platform);
      ReportingStep(SliceSentiments(timeSlice[..i], platform), FailingRows(timeSlice[..i], platform),
                    graphSentiments, events, graphSentiment, failed);
      graphSentiments := graphSentiments + [graphSentiment];
      events := events + Report(graphSentiments, failed);
    }
    assert timeSlice[..|timeSlice|] == timeSlice;
  }

  // ---------------------------------------------------------------------
  // Low-rating reviews with positive sentiment

  /** One review. Review's declaration is not part of this model; its
      fields are those its initializer is given. */
  datatype Review = Review(appName: string, title: string, rating: real, review: string, version: string, date: string)

  function RatingOf(result: Json, platform: Platform): Option<real> {
    platform.parseDouble(StringValue(Get(result, "rating"), platform.realText))
  }

  /** Position of the first result whose rating is not a number, or the
      number of results. */
  function FirstBadRating(results: seq<Json>, platform: Platform): (k: nat)
    ensures k <= |results|
    ensures forall i :: 0 <= i < k ==> RatingOf(results[i], platform).Some?
    ensures k < |results| ==> RatingOf(results[k], platform).None?
  {
    if |results| == 0 || RatingOf(results[0], platform).None? then 0
    else 1 + FirstBadRating(results[1..], platform)
  }

  /** Reference: the review one result decodes to, given its rating. */
  function ReviewOf(result: Json, platform: Platform): (r: Review)
    requires RatingOf(result, platform).Some?
    ensures r.rating == RatingOf(result, platform).value
    ensures r.date == platform.formatDate(StringValue(Get(result, "updated"), platform.realText))
  {
    Review(StringValue(Get(result, "app_name"), platform.realText),
           StringValue(Get(result, "title"), platform.realText),
           RatingOf(result, platform).value,
           StringValue(Get(result, "review"), platform.realText),
           StringValue(Get(result, "version"), platform.realText),
           platform.formatDate(StringValue(Get(result, "updated"), platform.realText)))
  }

  /** `queryForPositiveSentimentLowRatingReviews`' handler: reviews are
      decoded in order until one has a rating that is not a number, which
      reports `stringToIntFailed` and ends the loop; `success` is then
      called once with the reviews decoded so far. */
  method QueryForLowRatingReviews(response: Option<Json>, platform: Platform)
    returns (events: seq<Callback<seq<Review>, DiscoveryError>>)
    ensures response.None? ==> events == []
    ensures response.Some? ==>
              var results := Elements(Get(response.value, "results"));
              var k := FirstBadRating(results, platform);
              && |events| == (if k < |results| then 2 else 1)
              && (k < |results| ==> events[0] == Failure(StringToIntFailed))
              && events[|events| - 1].Success?
              && |events[|events| - 1].value| == k
              && forall i :: 0 <= i < k ==> events[|events| - 1].value[i] == ReviewOf(results[i], platform)
  {
    events := [];
    if response.None? {
      return;
    }
    var reviewResults := Elements(Get(response.value, "results"));
    var k := FirstBadRating(reviewResults, platform);
    var reviews: seq<Review> := [];
    var i := 0;
    while i < |reviewResults|
      invariant 0 <= i <= k
      invariant events == []
      invariant |reviews| == i
      invariant forall j :: 0 <= j < i ==> reviews[j] == ReviewOf(reviewResults[j], platform)
      decreases |reviewResults| - i
    {
      var reviewResult := reviewResults[i];
      var rating := RatingOf(reviewResult, platform);
      if rating.None? {
        events := [Failure(StringToIntFailed)];
        break;
      }
      var version := StringValue(Get(reviewResult, "version"), platform.realText);
      var date := platform.formatDate(StringValue(Get(reviewResult, "updated"), platform.realText));
      var review := Review(StringValue(Get(reviewResult, "app_name"), platform.realText),
                           StringValue(Get(reviewResult, "title"), platform.realText),
                           rating.value,
                           StringValue(Get(reviewResult, "review"), platform.realText),
                           version, date);
      assert i < k;
      assert review == ReviewOf(reviewResult, platform);
      reviews := reviews + [review];
      i := i + 1;
    }
    events := events + [Success(reviews)];
  }
}

=== FILE: grades.dfy ===
/** The letter grade a sentiment score earns, the `Grade` enum's raw
    values, and which star image each position of a rating row shows. */
module Grades {
  import Wrappers

  /** `Grade`, a `String`-backed enum; `None` is the absence of a grade. */
  datatype Grade = A | B | C | D | F | None

  /** The enum's raw values. */
  function RawValue(g: Grade): string {
    match g
    case A => "A"
    case B => "B"
    case C => "C"
    case D => "D"
    case F => "F"
    case None => ""
  }

  /** `Grade(rawValue:)`: the case whose raw value is `s`, if any. */
  function FromRawValue(s: string): (r: Wrappers.Option<Grade>)
    ensures r.Some? ==> RawValue(r.value) == s
  {
    if s == "A" then Wrappers.Some(A)
    else if s == "B" then Wrappers.Some(B)
    else if s == "C" then Wrappers.Some(C)
    else if s == "D" then Wrappers.Some(D)
    else if s == "F" then Wrappers.Some(F)
    else if s == "" then Wrappers.Some(None)
    else Wrappers.None
  }

  /** Raw values are distinct, so reading one back gives the same case. */
  lemma RawValueRoundTrip(g: Grade)
    ensures FromRawValue(RawValue(g)) == Wrappers.Some(g)
  {
  }

  /** `convertSentimentToLetterScore(sentiment:)`: five guarded
      assignments in turn, starting from `None`; a later one that fires
      overwrites an earlier one. */
  function LetterScore(sentiment: real): (g: Grade)
    ensures g == A <==> 0.6 < sentiment <= 1.0
    ensures g == B <==> 0.2 < sentiment <= 0.6
    ensures g == C <==> -0.2 < sentiment <= 0.2
    ensures g == D <==> -0.6 < sentiment <= -0.2
    ensures g == F <==> -1.0 <= sentiment <= -0.6
    ensures g == None <==> sentiment < -1.0 || 1.0 < sentiment
  {
    var g0 := None;
    var g1 := if 0.6 < sentiment && sentiment <= 1.0 then A else g0;
    var g2 := if 0.2 < sentiment && sentiment <= 0.6 then B else g1;
    var g3 := if -0.2 < sentiment && sentiment <= 0.2 then C else g2;
    var g4 := if -0.6 < sentiment && sentiment <= -0.2 then D else g3;
    if -1.0 <= sentiment && sentiment <= -0.6 then F else g4
  }

  /** Grades ordered from worst to best. */
  function Rank(g: Grade): nat {
    match g
    case None => 0
    case F => 1
    case D => 2
    case C => 3
    case B => 4
    case A => 5
  }

  /** Within [-1, 1] a higher score never earns a worse letter. */
  lemma LetterScoreMonotone(s: real, t: real)
    requires -1.0 <= s <= t <= 1.0
    ensures Rank(LetterScore(s)) <= Rank(LetterScore(t))
    ensures LetterScore(s) != None && LetterScore(t) != None
  {
  }

  /** An interval of scores: from `low` (included when `closedBelow`) up
      to and including `high`. */
  datatype Interval = Interval(low: real, closedBelow: bool, high: real)

  predicate InInterval(s: real, i: Interval) {
    (if i.closedBelow then i.low <= s else i.low < s) && s <= i.high
  }

  /** The ranges the enum's documentation gives for each letter. */
  function DocumentedRange(g: Grade): Wrappers.Option<Interval> {
    match g
    case A => Wrappers.Some(Interval(0.6, false, 1.0))
    case B => Wrappers.Some(Interval(0.2, false, 0.6))
    case C => Wrappers.Some(Interval(-0.2, false, 0.2))
    case D => Wrappers.Some(Interval(-0.6, false, -0.2))
    case F => Wrappers.Some(Interval(-1.0, true, -0.6))
    case None => Wrappers.None
  }

  /** The documented ranges do not overlap, and together they cover
      exactly [-1, 1]. */
  lemma DocumentedRangesPartition(s: real, g: Grade, h: Grade)
    requires DocumentedRange(g).Some? && DocumentedRange(h).Some?
    requires InInterval(s, DocumentedRange(g).value) && InInterval(s, DocumentedRange(h).value)
    ensures g == h
  {
  }

  lemma DocumentedRangesCover(s: real)
    ensures (-1.0 <= s <= 1.0) <==>
            exists g :: DocumentedRange(g).Some? && InInterval(s, DocumentedRange(g).value)
  {
    if -1.0 <= s <= 1.0 {
      var g := LetterScore(s);
      assert DocumentedRange(g).Some? && InInterval(s, DocumentedRange(g).value);
    }
  }

  /** The conversion agrees with the documentation: a score earns a letter
      exactly when it lies in that letter's documented range. */
  lemma LetterScoreMatchesDocumentation(s: real, g: Grade)
    requires g != None
    ensures LetterScore(s) == g <==> InInterval(s, DocumentedRange(g).value)
  {
  }

  /** The image shown at one position of a star row. */
  datatype Star = Full | Half | Empty

  /** The image for position `index` when the rating is `stars`. */
  function StarAt(stars: real, index: int): Star {
    var floorStars := stars.Floor;
    var remainder := stars - floorStars as real;
    if index < floorStars then Full
    else if remainder > 0.0 && index == floorStars then Half
    else Empty
  }

  /** `setUpStarStackView(numberOfStars:starStackView:)`: walks the
      subviews in order (`true` for an image view), sets the image of each
      image view, and stops at the first subview that is not one. */
  function StarImages(stars: real, subviews: seq<bool>): (r: seq<Star>)
    ensures |r| <= |subviews|
    ensures forall i :: 0 <= i < |r| ==> subviews[i]
    ensures |r| < |subviews| ==> !subviews[|r|]
    ensures forall i :: 0 <= i < |r| ==> (r[i] == Full <==> i < stars.Floor)
    ensures forall i :: 0 <= i < |r| ==> (r[i] == Half <==> i == stars.Floor && (i as real) < stars)
  {
    var r := StarsFrom(stars, subviews, 0);
    assert forall i :: 0 <= i < |r| ==> r[i] == StarAt(stars, i) by {
      forall i | 0 <= i < |r| ensures r[i] == StarAt(stars, i) {
        assert r[i - 0] == StarAt(stars, i);
      }
    }
    r
  }

  function StarsFrom(stars: real, subviews: seq<bool>, index: nat): (r: seq<Star>)
    requires index <= |subviews|
    ensures |r| <= |subviews| - index
    ensures forall i :: index <= i < index + |r| ==> subviews[i] && r[i - index] == StarAt(stars, i)
    ensures index + |r| < |subviews| ==> !subviews[index + |r|]
    decreases |subviews| - index
  {
    if index == |subviews| || !subviews[index] then []
    else [StarAt(stars, index)] + StarsFrom(stars, subviews, index + 1)
  }

  /** Number of positions showing `s`. */
  function CountOf(r: seq<Star>, s: Star): nat {
    if |r| == 0 then 0 else (if r[0] == s then 1 else 0) + CountOf(r[1..], s)
  }

  /** The value a star row displays, counting a half star as 0.5. */
  function Shown(r: seq<Star>): real {
    CountOf(r, Full) as real + 0.5 * CountOf(r, Half) as real
  }

  lemma {:induction false} CountOfSplit(r: seq<Star>, s: Star, k: nat)
    requires k <= |r|
    ensures CountOf(r, s) == CountOf(r[..k], s) + CountOf(r[k..], s)
    decreases k
  {
    if k > 0 {
      CountOfSplit(r[1..], s, k - 1);
      assert r[..k][1..] == r[1..][..k - 1];
      assert r[1..][k - 1..] == r[k..];
    }
  }

  lemma {:induction false} CountOfUniform(r: seq<Star>, s: Star, t: Star)
    requires forall i :: 0 <= i < |r| ==> r[i] == t
    ensures CountOf(r, s) == if s == t then |r| else 0
    decreases |r|
  {
    if |r| > 0 {
      CountOfUniform(r[1..], s, t);
    }
  }

  /** With a rating between 0 and the number of image views, the row shows
      the rating rounded down to a whole or half star: `floor(stars)` full
      stars, one half star when there is a fractional part, and nothing
      more. */
  lemma StarsShowRoundedRating(stars: real, subviews: seq<bool>)
    requires 0.0 <= stars
    requires forall i :: 0 <= i < |subviews| ==> subviews[i]
    requires stars.Floor < |subviews|
    ensures CountOf(StarImages(stars, subviews), Full) == stars.Floor
    ensures CountOf(StarImages(stars, subviews), Half) == if stars.Floor as real < stars then 1 else 0
    ensures Shown(StarImages(stars, subviews)) ==
            if stars.Floor as real < stars then stars.Floor as real + 0.5 else stars
  {
    var r := StarImages(stars, subviews);
    var n := stars.Floor;
    assert |r| == |subviews|;
    CountOfSplit(r, Full, n);
    CountOfSplit(r, Half, n);
    CountOfUniform(r[..n], Full, Full);
    CountOfUniform(r[..n], Half, Full);
    var rest := r[n..];
    CountOfSplit(rest, Full, 1);
    CountOfSplit(rest, Half, 1);
    var empties := rest[1..];
    assert rest[1..] == empties;
    CountOfUniform(empties, Full, Empty);
    CountOfUniform(empties, Half, Empty);
    if n as real < stars {
      assert rest[..1] == [Half];
    } else {
      assert rest[..1] == [Empty];
    }
  }
}

=== FILE: json.dfy ===
/** The JSON values the app receives, and the SwiftyJSON accessors it reads
    them with. Numbers that parsed as integers and numbers with a fraction
    are kept apart, as `NSNumber` keeps them apart. */
module Json {
  import opened Wrappers
  import opened Numbers

  datatype Json =
    | JNull
    | JBool(b: bool)
    | JInt(i: int)
    | JReal(r: real)
    | JString(s: string)
    | JArray(items: seq<Json>)
    | JObject(fields: map<string, Json>)

  /** `json[key]`: the member, or `null` when `json` is not an object or
      lacks the key. */
  function Get(json: Json, key: string): Json {
    if json.JObject? && key in json.fields then json.fields[key] else JNull
  }

  /** `json[index]`: the element, or `null` when `json` is not an array or
      the index is out of range. */
  function At(json: Json, index: int): Json {
    if json.JArray? && 0 <= index < |json.items| then json.items[index] else JNull
  }

  /** `json.dictionary`. */
  function Dictionary(json: Json): Option<map<string, Json>> {
    if json.JObject? then Some(json.fields) else None
  }

  /** `json.array`. */
  function Array(json: Json): Option<seq<Json>> {
    if json.JArray? then Some(json.items) else None
  }

  /** `for (_, element) in json` over an array: its elements in order.
      SwiftyJSON also iterates an object's values, in an unspecified order;
      an object is treated here like a scalar, with no elements. */
  function Elements(json: Json): seq<Json> {
    if json.JArray? then json.items else []
  }

  /** `json.string`: only a string is a string. */
  function AsString(json: Json): Option<string> {
    if json.JString? then Some(json.s) else None
  }

  /** `json.double`: any number, and a boolean as 0 or 1. */
  function AsDouble(json: Json): Option<real> {
    match json
    case JInt(i) => Some(i as real)
    case JReal(r) => Some(r)
    case JBool(b) => Some(if b then 1.0 else 0.0)
    case _ => None
  }

  /** Conversion of a fractional number to an integer, rounding toward
      zero as `NSNumber.intValue` does. */
  function TruncateTowardZero(r: real): (n: int)
    ensures r >= 0.0 ==> n as real <= r < n as real + 1.0
    ensures r < 0.0 ==> n as real - 1.0 < r <= n as real
  {
    if r >= 0.0 then r.Floor else -((-r).Floor)
  }

  /** `json.int`: any number, a fractional one truncated toward zero, and a
      boolean as 0 or 1. */
  function AsInt(json: Json): Option<int> {
    match json
    case JInt(i) => Some(i)
    case JReal(r) => Some(TruncateTowardZero(r))
    case JBool(b) => Some(if b then 1 else 0)
    case _ => None
  }

  /** `json.stringValue`: a string as is, an integer in decimal, a boolean
      as "true"/"false", and "" for anything else. A fractional number is
      printed by `realText`, the platform's number formatter. */
  function StringValue(json: Json, realText: real -> string): string {
    match json
    case JString(s) => s
    case JInt(i) => IntToDecimal(i)
    case JReal(r) => realText(r)
    case JBool(b) => if b then "true" else "false"
    case _ => ""
  }
}

=== FILE: keyword.dfy ===
/** The keyword record returned by the search service and the merge of two
    records' sentiment counts. */
module KeywordModel {

  /** One polarity bucket: its label and the number of matching reviews. */
  datatype Sentiment = Sentiment(kind: string, matchingResults: int)

  /** A keyword with one bucket per polarity. */
  datatype Keyword = Keyword(keyword: string, positive: Sentiment, neutral: Sentiment, negative: Sentiment)

  /** The three counts of a keyword taken together. */
  datatype Tally = Tally(positive: int, neutral: int, negative: int) {

    function Plus(other: Tally): Tally {
      Tally(positive + other.positive, neutral + other.neutral, negative + other.negative)
    }

    /** Number of review mentions over all polarities. */
    function Total(): int {
      positive + neutral + negative
    }

    predicate NonNegative() {
      positive >= 0 && neutral >= 0 && negative >= 0
    }

    predicate AtLeast(other: Tally) {
      positive >= other.positive && neutral >= other.neutral && negative >= other.negative
    }
  }

  const Zero := Tally(0, 0, 0)

  function CountsOf(k: Keyword): Tally {
    Tally(k.positive.matchingResults, k.neutral.matchingResults, k.negative.matchingResults)
  }

  /** The labels every decoded keyword carries. */
  predicate WellLabelled(k: Keyword) {
    k.positive.kind == "positive" && k.neutral.kind == "neutral" && k.negative.kind == "negative"
  }

  /** `k.addSentiments(withKeyword: other)`: `k` with `other`'s three counts
      added to its own. The text and the labels are `let` fields and stay. */
  function AddSentiments(k: Keyword, other: Keyword): (r: Keyword)
    ensures CountsOf(r) == CountsOf(k).Plus(CountsOf(other))
    ensures CountsOf(r).Total() == CountsOf(k).Total() + CountsOf(other).Total()
    ensures r.keyword == k.keyword
    ensures r.positive.kind == k.positive.kind && r.neutral.kind == k.neutral.kind && r.negative.kind == k.negative.kind
    ensures WellLabelled(k) ==> WellLabelled(r)
    ensures CountsOf(other) == Zero ==> r == k
    ensures CountsOf(other).NonNegative() ==> CountsOf(r).AtLeast(CountsOf(k))
  {
    k.(positive := k.positive.(matchingResults := k.positive.matchingResults + other.positive.matchingResults),
       negative := k.negative.(matchingResults := k.negative.matchingResults + other.negative.matchingResults),
       neutral := k.neutral.(matchingResults := k.neutral.matchingResults + other.neutral.matchingResults))
  }

  /** Merging `a` then `b` ends in the same keyword as merging `b` then `a`. */
  lemma MergeOrderIrrelevant(k: Keyword, a: Keyword, b: Keyword)
    ensures AddSentiments(AddSentiments(k, a), b) == AddSentiments(AddSentiments(k, b), a)
  {
  }
}

=== FILE: numbers.dfy ===
/** Decimal and hexadecimal digit strings: Swift's `Int(text)`, Python's
    `int(text)`, the decimal text of an integer, and Foundation's hex
    scanner. */
module Numbers {
  import opened Wrappers
  import opened Text

  function DigitValue(c: char): nat
    requires IsDigit(c)
  {
    c as int - '0' as int
  }

  function DigitChar(d: nat): char
    requires d < 10
  {
    ('0' as int + d) as char
  }

  predicate AllDigits(s: string) {
    forall i :: 0 <= i < |s| ==> IsDigit(s[i])
  }

  /** Value of a string of decimal digits, most significant digit first. */
  function DigitsValue(s: string): nat
    requires AllDigits(s)
    decreases |s|
  {
    if |s| == 0 then 0 else DigitsValue(s[..|s| - 1]) * 10 + DigitValue(s[|s| - 1])
  }

  /** The decimal text of a natural number, without leading zeros. */
  function NatToDecimal(n: nat): (s: string)
    ensures |s| >= 1 && AllDigits(s)
    ensures DigitsValue(s) == n
    ensures |s| > 1 ==> s[0] != '0'
  {
    if n < 10 then [DigitChar(n)]
    else
      var s := NatToDecimal(n / 10) + [DigitChar(n % 10)];
      assert s[..|s| - 1] == NatToDecimal(n / 10);
      s
  }

  /** `"\(n)"` in Swift, `str(n)` in Python. */
  function IntToDecimal(n: int): string {
    if n < 0 then "-" + NatToDecimal(-n) else NatToDecimal(n)
  }

  /** A sign (or none) followed by at least one decimal digit, and the
      value that text denotes. */
  function SignedDecimal(s: string): (r: Option<int>)
    ensures r.Some? <==> |s| > 0 && ((s[0] == '+' || s[0] == '-') ==> |s| > 1) && AllDigits(if s[0] == '+' || s[0] == '-' then s[1..] else s)
  {
    if |s| == 0 then None
    else if s[0] == '+' || s[0] == '-' then
      if |s| > 1 && AllDigits(s[1..]) then
        var magnitude: int := DigitsValue(s[1..]);
        Some(if s[0] == '-' then -magnitude else magnitude)
      else None
    else if AllDigits(s) then Some(DigitsValue(s) as int)
    else None
  }

  /** Unsigned digit text denotes its value. */
  lemma SignedDecimalOfDigits(c: string)
    requires |c| > 0 && AllDigits(c)
    ensures SignedDecimal(c) == Some(DigitsValue(c) as int)
  {
    assert IsDigit(c[0]);
  }

  const IntMin: int := -0x8000_0000_0000_0000
  const IntMax: int := 0x7FFF_FFFF_FFFF_FFFF

  /** Swift's `Int(text)` on a 64-bit platform: a signed decimal with
      nothing around it, whose value fits in `Int`. */
  function SwiftInt(s: string): (r: Option<int>)
    ensures r.Some? ==> IntMin <= r.value <= IntMax && SignedDecimal(s) == r
    ensures r.None? ==> SignedDecimal(s).None? || SignedDecimal(s).value < IntMin || SignedDecimal(s).value > IntMax
  {
    match SignedDecimal(s)
    case None => None
    case Some(v) => if IntMin <= v <= IntMax then Some(v) else None
  }

  /** Python's `int(token)` for a token without surrounding whitespace:
      a signed decimal of any size. */
  function PyInt(s: string): Option<int> {
    SignedDecimal(s)
  }

  /** Printing an `Int` and reading it back with `Int(_:)` gives it back. */
  lemma SwiftIntOfDecimal(n: int)
    requires IntMin <= n <= IntMax
    ensures SwiftInt(IntToDecimal(n)) == Some(n)
  {
    var s := IntToDecimal(n);
    if n < 0 {
      assert s[1..] == NatToDecimal(-n);
    } else {
      var d := NatToDecimal(n);
      assert d[0] != '+' && d[0] != '-' by { assert IsDigit(d[0]); }
    }
  }

  predicate IsHexDigit(c: char) {
    IsDigit(c) || 'a' <= c <= 'f' || 'A' <= c <= 'F'
  }

  function HexDigitValue(c: char): (v: nat)
    requires IsHexDigit(c)
    ensures v < 16
  {
    if IsDigit(c) then DigitValue(c)
    else if 'a' <= c <= 'f' then c as int - 'a' as int + 10
    else c as int - 'A' as int + 10
  }

  /** The lower-case hex digit for `d`. */
  function HexChar(d: nat): (c: char)
    requires d < 16
    ensures IsHexDigit(c) && HexDigitValue(c) == d
  {
    if d < 10 then DigitChar(d) else ('a' as int + d - 10) as char
  }

  predicate AllHexDigits(s: string) {
    forall i :: 0 <= i < |s| ==> IsHexDigit(s[i])
  }

  function HexDigitsValue(s: string): nat
    requires AllHexDigits(s)
    decreases |s|
  {
    if |s| == 0 then 0 else HexDigitsValue(s[..|s| - 1]) * 16 + HexDigitValue(s[|s| - 1])
  }

  /** Length of the longest prefix of `s` made of hex digits. */
  function HexRun(s: string): (n: nat)
    ensures n <= |s| && AllHexDigits(s[..n])
    ensures n < |s| ==> !IsHexDigit(s[n])
  {
    if |s| == 0 || !IsHexDigit(s[0]) then 0
    else
      var n := 1 + HexRun(s[1..]);
      assert s[..n] == [s[0]] + s[1..][..n - 1];
      n
  }

  const UInt64Max: nat := 0xFFFF_FFFF_FFFF_FFFF

  /** `Scanner(string: s).scanHexInt64(&value)`: fails unless `s` starts
      with a hex digit; otherwise reads the longest run of hex digits,
      ignoring whatever follows, and saturates at `UInt64.max`. */
  function ScanHex(s: string): (r: Option<nat>)
    ensures r.None? <==> HexRun(s) == 0
    ensures r.Some? ==> r.value <= UInt64Max
    ensures r.Some? && HexDigitsValue(s[..HexRun(s)]) <= UInt64Max ==> r.value == HexDigitsValue(s[..HexRun(s)])
  {
    var n := HexRun(s);
    if n == 0 then None
    else
      var v := HexDigitsValue(s[..n]);
      Some(if v <= UInt64Max then v else UInt64Max)
  }

  lemma HexDigitsValueAppend(s: string, c: char)
    requires AllHexDigits(s) && IsHexDigit(c)
    ensures AllHexDigits(s + [c])
    ensures HexDigitsValue(s + [c]) == HexDigitsValue(s) * 16 + HexDigitValue(c)
  {
    assert (s + [c])[..|s|] == s;
  }
}

=== FILE: scripts.dfy ===
/** The text helpers of the data-preparation scripts: the printable-character
    filter and description cleaner, the rating-label parser and the keyword
    filter of the app-details uploader, and the app-id extraction of the chart
    scraper. The scripts work on unicode strings; only their ASCII behaviour
    is modelled. */
module Scripts {
  import opened Wrappers
  import opened Text
  import opened Numbers
  import opened Consolidator

  // ---------------------------------------------------------------------
  // Printable characters
  // ---------------------------------------------------------------------

  /** `string.punctuation`, as Python lists it. */
  const Punctuation: string := "!\"#$%&'()*+,-./:;<=>?@[\\]^_`{|}~"

  /** The punctuation characters: the four runs of visible ASCII that are
      neither digits nor letters. */
  predicate IsPunctuation(c: char) {
    '!' <= c <= '/' || ':' <= c <= '@' || '[' <= c <= '`' || '{' <= c <= '~'
  }

  predicate IsAsciiLetter(c: char) {
    'a' <= c <= 'z' || 'A' <= c <= 'Z'
  }

  /** Membership in `string.printable`: digits, letters, punctuation and the
      six whitespace characters. */
  predicate IsPrintable(c: char) {
    IsDigit(c) || IsAsciiLetter(c) || IsPunctuation(c) || IsSpace(c)
  }

  lemma PunctuationBelowDigits(c: char)
    requires '!' <= c <= '/'
    ensures c in Punctuation
  {
    assert Punctuation[c as int - 33] == c;
  }

  lemma PunctuationBelowLetters(c: char)
    requires ':' <= c <= '@'
    ensures c in Punctuation
  {
    assert Punctuation[c as int - 43] == c;
  }

  lemma PunctuationBetweenCases(c: char)
    requires '[' <= c <= '`'
    ensures c in Punctuation
  {
    assert Punctuation[c as int - 69] == c;
  }

  lemma PunctuationAboveLetters(c: char)
    requires '{' <= c <= '~'
    ensures c in Punctuation
  {
    assert Punctuation[c as int - 95] == c;
  }

  lemma ListedPunctuationInRuns(c: char)
    requires c in Punctuation
    ensures IsPunctuation(c)
  {
  }

  /** The four runs are exactly the characters `string.punctuation` lists. */
  lemma PunctuationIsListed(c: char)
    ensures IsPunctuation(c) <==> c in Punctuation
  {
    if '!' <= c <= '/' {
      PunctuationBelowDigits(c);
    } else if ':' <= c <= '@' {
      PunctuationBelowLetters(c);
    } else if '[' <= c <= '`' {
      PunctuationBetweenCases(c);
    } else if '{' <= c <= '~' {
      PunctuationAboveLetters(c);
    } else if c in Punctuation {
      ListedPunctuationInRuns(c);
    }
  }

  /** `to_ascii(text)`: the printable characters of `text`, in order. */
  function ToAscii(text: string): (r: string)
    ensures |r| <= |text|
    ensures forall i :: 0 <= i < |r| ==> IsPrintable(r[i])
  {
    if |text| == 0 then ""
    else (if IsPrintable(text[0]) then [text[0]] else "") + ToAscii(text[1..])
  }

  /** Filtering distributes over concatenation. */
  lemma {:induction false} ToAsciiAppend(a: string, b: string)
    ensures ToAscii(a + b) == ToAscii(a) + ToAscii(b)
    decreases |a|
  {
    if |a| > 0 {
      assert (a + b)[1..] == a[1..] + b;
      ToAsciiAppend(a[1..], b);
    } else {
      assert a + b == b;
    }
  }

  /** Each printable character is kept as often as it occurs; every other
      character is dropped. */
  lemma {:induction false} ToAsciiCounts(text: string, c: char)
    ensures multiset(ToAscii(text))[c] == if IsPrintable(c) then multiset(text)[c] else 0
    decreases |text|
  {
    if |text| > 0 {
      ToAsciiCounts(text[1..], c);
      assert text == [text[0]] + text[1..];
    }
  }

  /** The filter changes nothing exactly when every character is printable. */
  lemma {:induction false} ToAsciiFixedPoint(text: string)
    ensures ToAscii(text) == text <==> forall i :: 0 <= i < |text| ==> IsPrintable(text[i])
    decreases |text|
  {
    if |text| > 0 {
      ToAsciiFixedPoint(text[1..]);
      if forall i :: 0 <= i < |text| ==> IsPrintable(text[i]) {
        assert forall i :: 0 <= i < |text[1..]| ==> IsPrintable(text[1..][i]) by {
          forall i | 0 <= i < |text[1..]|
            ensures IsPrintable(text[1..][i])
          {
            assert text[1..][i] == text[i + 1];
          }
        }
        assert text == [text[0]] + text[1..];
      }
    }
  }

  lemma ToAsciiIdempotent(text: string)
    ensures ToAscii(ToAscii(text)) == ToAscii(text)
  {
    ToAsciiFixedPoint(ToAscii(text));
  }

  // ---------------------------------------------------------------------
  // Descriptions
  // ---------------------------------------------------------------------

  /** The tail of `clean_description`: empty text stays empty; text whose last
      character is not punctuation gets `". "` appended. */
  function EndSentence(t: string): (r: string)
    ensures |t| == 0 ==> r == ""
    ensures |t| <= |r| && r[..|t|] == t && (|r| == |t| || r[|t|..] == ". ")
    ensures |r| > 0 ==> IsPunctuation(r[|r| - 1]) || (|r| >= 2 && r[|r| - 2..] == ". ")
    ensures |t| > 0 ==> (r == t <==> IsPunctuation(t[|t| - 1]))
  {
    if |t| == 0 then t
    else if IsPunctuation(t[|t| - 1]) then t
    else t + ". "
  }

  /** `clean_description(text)` as written: the `lstrip()` call's result is
      discarded, so leading whitespace survives. */
  function CleanDescription(text: string): (r: string)
    ensures r == "" <==> ToAscii(text) == ""
    ensures forall i :: 0 <= i < |r| ==> IsPrintable(r[i])
    ensures |ToAscii(text)| <= |r| && r[..|ToAscii(text)|] == ToAscii(text)
    ensures r == ToAscii(text) || r == ToAscii(text) + ". "
    ensures |ToAscii(text)| > 0 ==>
              (r == ToAscii(text) <==> IsPunctuation(ToAscii(text)[|ToAscii(text)| - 1]))
  {
    EndSentencePrintable(ToAscii(text));
    EndSentence(ToAscii(text))
  }

  /** The description cleaner as its comment describes it: leading whitespace
      removed before the sentence is ended. */
  function CleanDescriptionStripped(text: string): (r: string)
    ensures r == "" <==> LStrip(ToAscii(text)) == ""
    ensures |r| > 0 ==> !IsSpace(r[0])
    ensures forall i :: 0 <= i < |r| ==> IsPrintable(r[i])
    ensures r == LStrip(ToAscii(text)) || r == LStrip(ToAscii(text)) + ". "
  {
    var t := LStrip(ToAscii(text));
    SuffixPrintable(ToAscii(text), |ToAscii(text)| - |t|);
    EndSentencePrintable(t);
    EndSentence(t)
  }

  /** Ending a sentence adds only printable characters. */
  lemma EndSentencePrintable(t: string)
    requires forall i :: 0 <= i < |t| ==> IsPrintable(t[i])
    ensures forall i :: 0 <= i < |EndSentence(t)| ==> IsPrintable(EndSentence(t)[i])
  {
    var r := EndSentence(t);
    forall i | 0 <= i < |r|
      ensures IsPrintable(r[i])
    {
      if i < |t| {
        assert r[..|t|][i] == t[i];
      } else {
        assert r[|t|..][i - |t|] == r[i];
      }
    }
  }

  lemma SuffixPrintable(s: string, k: nat)
    requires k <= |s| && forall i :: 0 <= i < |s| ==> IsPrintable(s[i])
    ensures forall i :: 0 <= i < |s[k..]| ==> IsPrintable(s[k..][i])
  {
    forall i | 0 <= i < |s[k..]|
      ensures IsPrintable(s[k..][i])
    {
      assert s[k..][i] == s[k + i];
    }
  }

  /** The two agree on every text whose printable part does not start with
      whitespace. */
  lemma CleanDescriptionsAgree(text: string)
    requires |ToAscii(text)| == 0 || !IsSpace(ToAscii(text)[0])
    ensures CleanDescriptionStripped(text) == CleanDescription(text)
  {
  }

  /** As written, leading whitespace reaches the description, and text made
      only of whitespace becomes that whitespace followed by a full stop;
      the stripped cleaner drops both. */
  lemma CleanDescriptionKeepsLeadingSpace(pre: string, body: string)
    requires |pre| > 0 && forall i :: 0 <= i < |pre| ==> IsSpace(pre[i])
    ensures |CleanDescription(pre + body)| > 0 && IsSpace(CleanDescription(pre + body)[0])
    ensures CleanDescription(pre) == pre + ". "
    ensures CleanDescriptionStripped(pre) == ""
  {
    ToAsciiFixedPoint(pre);
    ToAsciiAppend(pre, body);
    var a := ToAscii(pre + body);
    assert a == pre + ToAscii(body);
    assert CleanDescription(pre + body)[..|a|][0] == a[0] == pre[0];
  }

  // ---------------------------------------------------------------------
  // Ratings
  // ---------------------------------------------------------------------

  /** Text of digits and at most one decimal point, with at least one digit. */
  predicate Mantissa(m: string) {
    && (forall i :: 0 <= i < |m| ==> IsDigit(m[i]) || m[i] == '.')
    && (exists i :: 0 <= i < |m| && IsDigit(m[i]))
    && (forall i, j :: 0 <= i < j < |m| && m[i] == '.' ==> m[j] != '.')
  }

  function DropSign(s: string): string {
    if |s| > 0 && (s[0] == '+' || s[0] == '-') then s[1..] else s
  }

  predicate Exponent(x: string) {
    var d := DropSign(x);
    |d| > 0 && AllDigits(d)
  }

  predicate IsExponentMark(c: char) {
    c == 'e' || c == 'E'
  }

  /** A decimal literal with an optional exponent. */
  predicate DecimalFloat(b: string) {
    || Mantissa(b)
    || exists i :: 0 <= i < |b| && IsExponentMark(b[i]) && Mantissa(b[..i]) && Exponent(b[i + 1..])
  }

  /** Python's `float(s)` accepts `s` (a word with no whitespace around it). */
  predicate PyFloatText(s: string) {
    var body := DropSign(s);
    Lower(body) in {"inf", "infinity", "nan"} || DecimalFloat(body)
  }

  /** The pair `extract_rating` returns: the rating, kept as the text that
      `float()` accepted, and the number of reviews. */
  datatype RatingInfo = RatingInfo(rating: Option<string>, numReviews: Option<int>)

  const NoRating := RatingInfo(None, None)

  /** A piece containing a non-blank needle has at least one word. */
  lemma {:induction false} PieceWithNeedleHasAWord(piece: string, needle: string)
    requires |needle| > 0 && !IsSpace(needle[0]) && PyIn(needle, piece)
    ensures |Words(LStrip(piece))| > 0
  {
    PyInIff(needle, piece);
    var i :| OccursAt(piece, needle, i);
    assert piece[i] == needle[0];
    HasAWord(piece, i);
    WordsOfLStrip(piece);
  }

  /** Text with a non-whitespace character has a word. */
  lemma HasAWord(s: string, i: nat)
    requires i < |s| && !IsSpace(s[i])
    ensures |Words(s)| > 0
  {
    RemoveSpacesKeeps(s, i);
  }

  lemma {:induction false} RemoveSpacesKeeps(s: string, i: nat)
    requires i < |s| && !IsSpace(s[i])
    ensures |RemoveSpaces(s)| > 0
    decreases i
  {
    if i > 0 && IsSpace(s[0]) {
      RemoveSpacesKeeps(s[1..], i - 1);
    }
  }

  /** `i.lstrip().split()[0]`. */
  function FirstWord(piece: string): string
    requires |Words(LStrip(piece))| > 0
  {
    Words(LStrip(piece))[0]
  }

  /** The first word after any leading whitespace. */
  lemma FirstWordOf(pre: string, w: string, rest: string)
    requires forall i :: 0 <= i < |pre| ==> IsSpace(pre[i])
    requires |w| > 0 && forall i :: 0 <= i < |w| ==> !IsSpace(w[i])
    requires |rest| == 0 || IsSpace(rest[0])
    ensures |Words(LStrip(pre + (w + rest)))| > 0 && FirstWord(pre + (w + rest)) == w
  {
    var s := pre + (w + rest);
    WordsOfLStrip(s);
    WordsAfterSpaces(pre, w + rest);
    WordsOfWordThen(w, rest);
  }

  /** The first word of a piece that starts with a word. */
  lemma FirstWordStart(w: string, rest: string)
    requires |w| > 0 && forall i :: 0 <= i < |w| ==> !IsSpace(w[i])
    requires |rest| == 0 || IsSpace(rest[0])
    ensures |Words(LStrip(w + rest))| > 0 && FirstWord(w + rest) == w
  {
    WordsOfLStrip(w + rest);
    WordsOfWordThen(w, rest);
  }

  /** The rating text of a piece that mentions "stars". */
  function RatingText(piece: string): string
    requires PyIn("stars", piece)
  {
    PieceWithNeedleHasAWord(piece, "stars");
    FirstWord(piece) + (if PyIn("and a half", piece) then ".5" else "")
  }

  /** A piece the loop takes the rating from. */
  predicate MentionsStars(piece: string) {
    PyIn("stars", piece)
  }

  /** A piece the loop takes the review count from: it names "Ratings" and
      no stars. */
  predicate IsCountPiece(piece: string) {
    !PyIn("stars", piece) && PyIn("Ratings", piece)
  }

  /** `int(x[0])` for a piece naming "Ratings"; `None` when `int` raises. */
  function PieceCount(piece: string): Option<int>
    requires PyIn("Ratings", piece)
  {
    PieceWithNeedleHasAWord(piece, "Ratings");
    PyInt(FirstWord(piece))
  }

  /** A piece on which `float()` or `int()` raises. */
  predicate PieceFails(piece: string) {
    if MentionsStars(piece) then !PyFloatText(RatingText(piece))
    else IsCountPiece(piece) && PieceCount(piece).None?
  }

  /** One pass of the loop of `extract_rating` over a comma-separated piece. */
  function ReadPiece(piece: string, info: RatingInfo): (r: Raised<RatingInfo>)
    ensures r.ValueError? <==> PieceFails(piece)
    ensures !PyIn("stars", piece) && !PyIn("Ratings", piece) ==> r == Ok(info)
    ensures r.Ok? && r.value.rating != info.rating ==> PyIn("stars", piece) && r.value.rating.Some? && PyFloatText(r.value.rating.value)
    ensures r.Ok? && r.value.numReviews != info.numReviews ==> !PyIn("stars", piece) && PyIn("Ratings", piece)
  {
    if PyIn("stars", piece) then
      var rating := RatingText(piece);
      if PyFloatText(rating) then Ok(info.(rating := Some(rating))) else ValueError
    else if PyIn("Ratings", piece) then
      match PieceCount(piece)
      case Some(n) => Ok(info.(numReviews := Some(n)))
      case None => ValueError
    else Ok(info)
  }

  /** The text of a count piece: "<pre><c> Ratings". */
  function CountPiece(pre: string, c: string): string {
    pre + (c + " Ratings")
  }

  /** The branch of the loop taken for a piece naming "Ratings" but no stars. */
  lemma ReadCountBranch(piece: string, w: string, n: int, info: RatingInfo)
    requires !PyIn("stars", piece) && PyIn("Ratings", piece)
    requires |Words(LStrip(piece))| > 0 && FirstWord(piece) == w && PyInt(w) == Some(n)
    ensures ReadPiece(piece, info) == Ok(info.(numReviews := Some(n)))
  {
  }

  /** A count piece after whitespace sets the count from its digits. */
  lemma ReadCountPiece(pre: string, c: string, info: RatingInfo)
    requires forall i :: 0 <= i < |pre| ==> IsSpace(pre[i])
    requires |c| > 0 && AllDigits(c)
    ensures ReadPiece(CountPiece(pre, c), info) == Ok(info.(numReviews := Some(DigitsValue(c))))
  {
    CountPieceMentions(pre, c);
    FirstWordOf(pre, c, " Ratings");
    SignedDecimalOfDigits(c);
    ReadCountBranch(CountPiece(pre, c), c, DigitsValue(c), info);
  }

  /** A count piece mentions "Ratings" and not "stars". */
  lemma CountPieceMentions(pre: string, c: string)
    requires forall i :: 0 <= i < |pre| ==> IsSpace(pre[i])
    requires AllDigits(c)
    ensures !PyIn("stars", CountPiece(pre, c)) && PyIn("Ratings", CountPiece(pre, c))
  {
    var piece := CountPiece(pre, c);
    assert 'r' !in piece;
    NotInWhenCharMissing("stars", piece, 3);
    InWhenOccurs("Ratings", piece, |piece| - 7);
  }

  /** The text of a stars piece: "<d> stars" or "<d> and a half stars". */
  function StarsPiece(d: string, half: bool): string {
    d + ((if half then " and a half" else "") + " stars")
  }

  lemma StarsPieceMentions(d: string, half: bool)
    requires AllDigits(d)
    ensures PyIn("stars", StarsPiece(d, half))
    ensures PyIn("and a half", StarsPiece(d, half)) == half
  {
    var piece := StarsPiece(d, half);
    InWhenOccurs("stars", piece, |piece| - 5);
    if half {
      assert piece[|d| + 1..|d| + 11] == "and a half";
      InWhenOccurs("and a half", piece, |d| + 1);
    } else {
      assert 'h' !in piece;
      NotInWhenCharMissing("and a half", piece, 6);
    }
  }

  lemma StarsPieceFirstWord(d: string, half: bool)
    requires |d| > 0 && AllDigits(d)
    ensures |Words(LStrip(StarsPiece(d, half)))| > 0 && FirstWord(StarsPiece(d, half)) == d
  {
    FirstWordStart(d, (if half then " and a half" else "") + " stars");
  }

  /** A stars piece sets the rating to its number, with ".5" for a half. */
  lemma ReadStarsPiece(d: string, half: bool, info: RatingInfo)
    requires |d| > 0 && AllDigits(d)
    ensures ReadPiece(StarsPiece(d, half), info) == Ok(info.(rating := Some(d + (if half then ".5" else ""))))
  {
    StarsPieceMentions(d, half);
    StarsPieceFirstWord(d, half);
    assert RatingText(StarsPiece(d, half)) == d + (if half then ".5" else "");
    RatingTextIsFloat(d, half);
  }

  function ReadPieces(pieces: seq<string>, info: RatingInfo): (r: Raised<RatingInfo>)
    ensures (forall k :: 0 <= k < |pieces| ==> !PyIn("stars", pieces[k]) && !PyIn("Ratings", pieces[k])) ==> r == Ok(info)
    ensures r.Ok? && r.value.rating != info.rating ==> r.value.rating.Some? && PyFloatText(r.value.rating.value)
    decreases |pieces|
  {
    if |pieces| == 0 then Ok(info)
    else
      var next :- ReadPiece(pieces[0], info);
      ReadPieces(pieces[1..], next)
  }

  /** The rating once every piece is read: the rating text of the last
      stars piece, or `start` when there is none. */
  function LastRating(pieces: seq<string>, start: Option<string>): Option<string> {
    match LastWhere(pieces, MentionsStars)
    case None => start
    case Some(k) => Some(RatingText(pieces[k]))
  }

  /** The count once every piece is read: `int` of the first word of the
      last count piece, or `start` when there is none. */
  function LastCount(pieces: seq<string>, start: Option<int>): Option<int> {
    match LastWhere(pieces, IsCountPiece)
    case None => start
    case Some(k) => PieceCount(pieces[k])
  }

  /** The loop raises exactly when some piece fails: a piece's failure
      does not depend on the pieces before it. */
  lemma {:induction false} ReadPiecesRaises(pieces: seq<string>, info: RatingInfo)
    ensures ReadPieces(pieces, info).ValueError? <==> exists k :: 0 <= k < |pieces| && PieceFails(pieces[k])
    decreases |pieces|
  {
    if |pieces| > 0 {
      var tail := pieces[1..];
      match ReadPiece(pieces[0], info)
      case ValueError =>
        assert PieceFails(pieces[0]);
      case Ok(next) =>
        ReadPiecesRaises(tail, next);
        if exists k :: 0 <= k < |tail| && PieceFails(tail[k]) {
          var k :| 0 <= k < |tail| && PieceFails(tail[k]);
          assert PieceFails(pieces[k + 1]);
        }
        if exists k :: 0 <= k < |pieces| && PieceFails(pieces[k]) {
          var k :| 0 <= k < |pieces| && PieceFails(pieces[k]);
          assert k > 0 && PieceFails(tail[k - 1]);
        }
    }
  }

  /** When the loop does not raise, later pieces overwrite earlier ones, so
      the last stars piece gives the rating and the last count piece gives
      the count. */
  lemma {:induction false} ReadPiecesValue(pieces: seq<string>, info: RatingInfo)
    ensures ReadPieces(pieces, info).Ok? ==>
              ReadPieces(pieces, info).value ==
              RatingInfo(LastRating(pieces, info.rating), LastCount(pieces, info.numReviews))
    decreases |pieces|
  {
    if |pieces| > 0 {
      match ReadPiece(pieces[0], info)
      case ValueError =>
      case Ok(next) =>
        ReadPiecesValue(pieces[1..], next);
        ReadPieceEffect(pieces[0], info, next);
        ReadRatingStep(pieces, info.rating, next.rating);
        ReadCountStep(pieces, info.numReviews, next.numReviews);
    }
  }

  /** What one piece that does not raise does to the pair. */
  lemma ReadPieceEffect(piece: string, info: RatingInfo, next: RatingInfo)
    requires ReadPiece(piece, info) == Ok(next)
    ensures next.rating == if MentionsStars(piece) then Some(RatingText(piece)) else info.rating
    ensures next.numReviews == if IsCountPiece(piece) then PieceCount(piece) else info.numReviews
  {
  }

  /** The rating after the first piece, carried through the rest. */
  lemma ReadRatingStep(pieces: seq<string>, start: Option<string>, next: Option<string>)
    requires |pieces| > 0
    requires next == if MentionsStars(pieces[0]) then Some(RatingText(pieces[0])) else start
    ensures LastRating(pieces[1..], next) == LastRating(pieces, start)
  {
    var tail := pieces[1..];
    match LastWhere(tail, MentionsStars)
    case Some(k) =>
      assert pieces[k + 1] == tail[k];
    case None =>
  }

  /** The count after the first piece, carried through the rest. */
  lemma ReadCountStep(pieces: seq<string>, start: Option<int>, next: Option<int>)
    requires |pieces| > 0
    requires next == if IsCountPiece(pieces[0]) then PieceCount(pieces[0]) else start
    ensures LastCount(pieces[1..], next) == LastCount(pieces, start)
  {
    var tail := pieces[1..];
    match LastWhere(tail, IsCountPiece)
    case Some(k) =>
      assert pieces[k + 1] == tail[k];
    case None =>
  }

  /** `extract_rating(text)`: split on every comma; a piece mentioning
      "stars" sets the rating from its first word (with ".5" appended when it
      also says "and a half"), otherwise a piece mentioning "Ratings" sets the
      review count from its first word. `float` and `int` raise on bad text. */
  function ExtractRating(text: string): (r: Raised<RatingInfo>)
    ensures r.ValueError? <==> exists k :: 0 <= k < |SplitOn(text, ',')| && PieceFails(SplitOn(text, ',')[k])
    ensures r.Ok? ==> r.value.rating == LastRating(SplitOn(text, ','), None)
    ensures r.Ok? ==> r.value.numReviews == LastCount(SplitOn(text, ','), None)
    ensures r.Ok? && r.value.rating.Some? ==> PyFloatText(r.value.rating.value)
    ensures !PyIn("stars", text) && !PyIn("Ratings", text) ==> r == Ok(NoRating)
  {
    var pieces := SplitOn(text, ',');
    PiecesOfUnmentioned(text, pieces, "stars");
    PiecesOfUnmentioned(text, pieces, "Ratings");
    ReadPiecesRaises(pieces, NoRating);
    ReadPiecesValue(pieces, NoRating);
    ReadPieces(pieces, NoRating)
  }

  /** A needle absent from the text is absent from every comma piece. */
  lemma PiecesOfUnmentioned(text: string, pieces: seq<string>, needle: string)
    requires pieces == SplitOn(text, ',')
    ensures !PyIn(needle, text) ==> forall k :: 0 <= k < |pieces| ==> !PyIn(needle, pieces[k])
  {
    forall k | 0 <= k < |pieces| && PyIn(needle, pieces[k])
      ensures PyIn(needle, text)
    {
      PartInsideJoin(pieces, k, ',');
      var off := if k == 0 then 0 else |Join(pieces[..k], ',')| + 1;
      PyInIff(needle, pieces[k]);
      var i :| OccursAt(pieces[k], needle, i);
      OccursThroughSlice(text, pieces[k], off, needle, i);
      PyInIff(needle, text);
    }
  }

  /** The label of the store page: "<n> stars, <count> Ratings", with
      " and a half" after `n` for a half star. */
  function RatingLabel(whole: nat, half: bool, count: nat): string {
    Join([StarsPiece(NatToDecimal(whole), half), CountPiece(" ", NatToDecimal(count))], ',')
  }

  /** Reading a well-formed label gives back its rating text and count. */
  lemma ExtractRatingOfLabel(whole: nat, half: bool, count: nat)
    ensures ExtractRating(RatingLabel(whole, half, count)) ==
            Ok(RatingInfo(Some(NatToDecimal(whole) + (if half then ".5" else "")), Some(count)))
  {
    var d, c := NatToDecimal(whole), NatToDecimal(count);
    var stars, ratings := StarsPiece(d, half), CountPiece(" ", c);
    var info := RatingInfo(Some(d + (if half then ".5" else "")), None);
    assert ',' !in stars by {
      DigitsHaveNoComma(d);
      StarsPieceCommaFree(d, half);
    }
    assert ',' !in ratings by {
      DigitsHaveNoComma(c);
      CountPieceCommaFree(" ", c);
    }
    assert SplitOn(RatingLabel(whole, half, count), ',') == [stars, ratings] by {
      SplitOnJoin([stars, ratings], ',');
    }
    assert ReadPiece(stars, NoRating) == Ok(info) by {
      ReadStarsPiece(d, half, NoRating);
    }
    assert ReadPiece(ratings, info) == Ok(info.(numReviews := Some(count))) by {
      assert " " == [' '];
      ReadCountPiece(" ", c, info);
    }
    ReadTwoPieces(stars, ratings, NoRating);
    ReadOnePiece(ratings, info);
  }

  lemma ReadTwoPieces(a: string, b: string, info: RatingInfo)
    ensures ReadPieces([a, b], info) ==
            match ReadPiece(a, info)
            case Ok(next) => ReadPieces([b], next)
            case ValueError => ValueError
  {
    assert [a, b][1..] == [b];
  }

  lemma ReadOnePiece(a: string, info: RatingInfo)
    ensures ReadPieces([a], info) == ReadPiece(a, info)
  {
    assert [a][1..] == [];
  }

  lemma StarsPieceCommaFree(d: string, half: bool)
    requires ',' !in d
    ensures ',' !in StarsPiece(d, half)
  {
    var mid := if half then " and a half" else "";
    assert ',' !in mid;
    assert ',' !in " stars";
    assert StarsPiece(d, half) == d + (mid + " stars");
  }

  lemma CountPieceCommaFree(pre: string, c: string)
    requires ',' !in pre && ',' !in c
    ensures ',' !in CountPiece(pre, c)
  {
    assert ',' !in " Ratings";
  }

  lemma DigitsHaveNoComma(d: string)
    requires AllDigits(d)
    ensures ',' !in d
  {
  }

  lemma RatingTextIsFloat(d: string, half: bool)
    requires |d| > 0 && AllDigits(d)
    ensures PyFloatText(d + (if half then ".5" else ""))
  {
    var t := d + (if half then ".5" else "");
    assert DropSign(t) == t;
    assert IsDigit(t[0]);
    assert Mantissa(t);
  }

  /** The same label with the count written as "<high>,<low>". */
  function RatingLabelGrouped(whole: nat, high: nat, low: string): string {
    Join([StarsPiece(NatToDecimal(whole), false), " " + NatToDecimal(high), CountPiece("", low)], ',')
  }

  /** A piece holding only a number leaves the result unchanged. */
  lemma ReadBareNumber(n: nat, info: RatingInfo)
    ensures ReadPiece(" " + NatToDecimal(n), info) == Ok(info)
  {
    var middle := " " + NatToDecimal(n);
    assert 'r' !in middle && 'R' !in middle;
    NotInWhenCharMissing("stars", middle, 3);
    NotInWhenCharMissing("Ratings", middle, 0);
  }

  /** Every comma splits the label, so a count written with a thousands
      separator is read as its last group. */
  lemma ExtractRatingReadsLastGroup(whole: nat, high: nat, low: string)
    requires |low| > 0 && AllDigits(low)
    ensures ExtractRating(RatingLabelGrouped(whole, high, low)) ==
            Ok(RatingInfo(Some(NatToDecimal(whole)), Some(DigitsValue(low))))
  {
    var d := NatToDecimal(whole);
    var stars, middle, last := StarsPiece(d, false), " " + NatToDecimal(high), CountPiece("", low);
    var info := RatingInfo(Some(d), None);
    assert ',' !in stars && ',' !in middle && ',' !in last by {
      DigitsHaveNoComma(d);
      DigitsHaveNoComma(NatToDecimal(high));
      DigitsHaveNoComma(low);
    }
    SplitOnJoin([stars, middle, last], ',');
    ReadStarsPiece(d, false, NoRating);
    assert d + "" == d;
    ReadBareNumber(high, info);
    ReadCountPiece("", low, info);
    assert [stars, middle, last][1..] == [middle, last];
    ReadTwoPieces(middle, last, info);
    ReadOnePiece(last, info);
  }

  // ---------------------------------------------------------------------
  // Keywords
  // ---------------------------------------------------------------------

  function LowerAll(ws: seq<string>): (r: seq<string>)
    ensures |r| == |ws| && forall k :: 0 <= k < |ws| ==> r[k] == Lower(ws[k])
  {
    seq(|ws|, k requires 0 <= k < |ws| => Lower(ws[k]))
  }

  /** `title_words`: every whitespace-separated word of every phrase of
      `app_info`, lower-cased, in order. */
  function TitleWords(appInfo: seq<string>): (ws: seq<string>)
    ensures forall k :: 0 <= k < |ws| ==> |ws[k]| > 0
    decreases |appInfo|
  {
    if |appInfo| == 0 then [] else LowerAll(Words(appInfo[0])) + TitleWords(appInfo[1..])
  }

  /** The title words are exactly the lower-cased words of the phrases. */
  lemma {:induction false} TitleWordsMembers(appInfo: seq<string>, t: string)
    ensures t in TitleWords(appInfo) <==> exists k :: 0 <= k < |appInfo| && t in LowerAll(Words(appInfo[k]))
    decreases |appInfo|
  {
    if |appInfo| > 0 {
      var tail := appInfo[1..];
      TitleWordsMembers(tail, t);
      assert TitleWords(appInfo) == LowerAll(Words(appInfo[0])) + TitleWords(tail);
      if t in TitleWords(tail) {
        var k :| 0 <= k < |tail| && t in LowerAll(Words(tail[k]));
        assert tail[k] == appInfo[k + 1];
      }
      if exists k :: 0 <= k < |appInfo| && t in LowerAll(Words(appInfo[k])) {
        var k :| 0 <= k < |appInfo| && t in LowerAll(Words(appInfo[k]));
        if k > 0 {
          assert tail[k - 1] == appInfo[k];
        }
      }
    }
  }

  lemma LowerAllOfOne(w: string)
    ensures LowerAll([w]) == [Lower(w)]
  {
  }

  /** A phrase without whitespace contributes itself, lower-cased, unless it
      is empty. */
  lemma TitleWordsOfWord(w: string)
    requires forall i :: 0 <= i < |w| ==> !IsSpace(w[i])
    ensures LowerAll(Words(w)) == if |w| == 0 then [] else [Lower(w)]
  {
    if |w| > 0 {
      WordsOfWord(w);
      LowerAllOfOne(w);
    } else {
      assert Words(w) == [];
    }
  }

  /** The inner loop of `clean_keywords`: some title word occurs in the
      lower-cased phrase, or the lower-cased phrase occurs in it. */
  predicate Overlaps(phrase: string, titleWords: seq<string>) {
    exists k :: 0 <= k < |titleWords| && (PyIn(titleWords[k], Lower(phrase)) || PyIn(Lower(phrase), titleWords[k]))
  }

  function FirstClean(titleWords: seq<string>, keywords: seq<string>): (r: Option<string>)
    ensures r.None? <==> forall i :: 0 <= i < |keywords| ==> Overlaps(keywords[i], titleWords)
    ensures r.Some? ==> exists i :: && 0 <= i < |keywords| && r.value == Lower(keywords[i])
                                    && !Overlaps(keywords[i], titleWords)
                                    && forall j :: 0 <= j < i ==> Overlaps(keywords[j], titleWords)
    decreases |keywords|
  {
    if |keywords| == 0 then None
    else if !Overlaps(keywords[0], titleWords) then Some(Lower(keywords[0]))
    else
      var r := FirstClean(titleWords, keywords[1..]);
      if r.None? then
        FirstCleanSkipsAll(titleWords, keywords);
        r
      else
        var i :| && 0 <= i < |keywords[1..]| && r.value == Lower(keywords[1..][i])
                 && !Overlaps(keywords[1..][i], titleWords)
                 && forall j :: 0 <= j < i ==> Overlaps(keywords[1..][j], titleWords);
        FirstCleanSkipsTo(titleWords, keywords, i);
        r
  }

  /** Skipping a first keyword that overlaps: when every later keyword
      overlaps too, every keyword does. */
  lemma FirstCleanSkipsAll(titleWords: seq<string>, keywords: seq<string>)
    requires |keywords| > 0 && Overlaps(keywords[0], titleWords)
    requires forall i :: 0 <= i < |keywords[1..]| ==> Overlaps(keywords[1..][i], titleWords)
    ensures forall i :: 0 <= i < |keywords| ==> Overlaps(keywords[i], titleWords)
  {
    var tail := keywords[1..];
    forall i | 0 <= i < |keywords|
      ensures Overlaps(keywords[i], titleWords)
    {
      if i > 0 {
        assert keywords[i] == tail[i - 1];
      }
    }
  }

  /** Skipping a first keyword that overlaps: the first clean keyword of the
      rest, at position `i` there, is the first clean keyword at `i + 1`. */
  lemma FirstCleanSkipsTo(titleWords: seq<string>, keywords: seq<string>, i: nat)
    requires |keywords| > 0 && Overlaps(keywords[0], titleWords)
    requires i < |keywords[1..]| && !Overlaps(keywords[1..][i], titleWords)
    requires forall j :: 0 <= j < i ==> Overlaps(keywords[1..][j], titleWords)
    ensures !Overlaps(keywords[i + 1], titleWords) && keywords[i + 1] == keywords[1..][i]
    ensures forall j :: 0 <= j < i + 1 ==> Overlaps(keywords[j], titleWords)
  {
    var tail := keywords[1..];
    forall j | 0 <= j < i + 1
      ensures Overlaps(keywords[j], titleWords)
    {
      if j > 0 {
        assert keywords[j] == tail[j - 1];
      }
    }
  }

  /** `clean_keywords(app_info, keywords)`: the first keyword, lower-cased,
      that shares no word with the app info; `None` when every keyword
      does. */
  function CleanKeywords(appInfo: seq<string>, keywords: seq<string>): (r: Option<string>)
    ensures r.None? <==> forall i :: 0 <= i < |keywords| ==> Overlaps(keywords[i], TitleWords(appInfo))
    ensures r.Some? ==> exists i :: && 0 <= i < |keywords| && r.value == Lower(keywords[i])
                                    && !Overlaps(keywords[i], TitleWords(appInfo))
                                    && forall j :: 0 <= j < i ==> Overlaps(keywords[j], TitleWords(appInfo))
  {
    FirstClean(TitleWords(appInfo), keywords)
  }

  /** The keyword stored by `query_for_top_keywords`: the app info is the app
      name and the category split on single spaces, then "app" -- the same
      list the app's own keyword table builds. */
  function QueryForTopKeywords(appName: string, category: string, keywords: seq<string>): (r: Option<string>)
    ensures r.Some? ==> |r.value| > 0
    ensures r.Some? ==> exists i :: 0 <= i < |keywords| && r.value == Lower(keywords[i])
  {
    var appInfo := NoiseVocabulary(appName, category);
    HasAWord(appInfo[|appInfo| - 1], 0);
    EmptyPhraseOverlaps(appInfo, |appInfo| - 1);
    CleanKeywords(appInfo, keywords)
  }

  /** Once some phrase has a word, the empty string -- which is in every
      string -- overlaps it, so an empty keyword is never chosen. */
  lemma EmptyPhraseOverlaps(appInfo: seq<string>, k: nat)
    requires k < |appInfo| && |Words(appInfo[k])| > 0
    ensures forall p :: |p| == 0 ==> Overlaps(p, TitleWords(appInfo))
  {
    var t := Lower(Words(appInfo[k])[0]);
    assert t == LowerAll(Words(appInfo[k]))[0];
    TitleWordsMembers(appInfo, t);
    var m :| 0 <= m < |TitleWords(appInfo)| && TitleWords(appInfo)[m] == t;
    forall p: string | |p| == 0
      ensures Overlaps(p, TitleWords(appInfo))
    {
      assert PyIn(Lower(p), TitleWords(appInfo)[m]);
    }
  }

  /** On non-empty keywords and app info without tabs or newlines, the
      script's filter rejects exactly the keywords the app's table treats as
      noise. */
  lemma OverlapsIsNoise(phrase: string, vocab: seq<string>)
    requires |phrase| > 0
    requires forall k, i :: 0 <= k < |vocab| && 0 <= i < |vocab[k]| ==> !IsSpace(vocab[k][i])
    ensures Overlaps(phrase, TitleWords(vocab)) <==> IsNoise(phrase, vocab)
  {
    if Overlaps(phrase, TitleWords(vocab)) {
      OverlapIsNoise(phrase, vocab);
    }
    if IsNoise(phrase, vocab) {
      NoiseOverlaps(phrase, vocab);
    }
  }

  lemma OverlapIsNoise(phrase: string, vocab: seq<string>)
    requires |phrase| > 0
    requires forall k, i :: 0 <= k < |vocab| && 0 <= i < |vocab[k]| ==> !IsSpace(vocab[k][i])
    requires Overlaps(phrase, TitleWords(vocab))
    ensures IsNoise(phrase, vocab)
  {
    var titles := TitleWords(vocab);
    var m :| 0 <= m < |titles| && (PyIn(titles[m], Lower(phrase)) || PyIn(Lower(phrase), titles[m]));
    TitleWordsMembers(vocab, titles[m]);
    var k :| 0 <= k < |vocab| && titles[m] in LowerAll(Words(vocab[k]));
    TitleWordsOfWord(vocab[k]);
    NoiseOfTitle(phrase, vocab[k]);
  }

  lemma NoiseOverlaps(phrase: string, vocab: seq<string>)
    requires |phrase| > 0
    requires forall k, i :: 0 <= k < |vocab| && 0 <= i < |vocab[k]| ==> !IsSpace(vocab[k][i])
    requires IsNoise(phrase, vocab)
    ensures Overlaps(phrase, TitleWords(vocab))
  {
    var titles := TitleWords(vocab);
    var k :| 0 <= k < |vocab| && ContainsWord(phrase, vocab[k]);
    ContainsWordIff(phrase, vocab[k]);
    TitleWordsOfWord(vocab[k]);
    TitleWordsMembers(vocab, Lower(vocab[k]));
    assert Lower(vocab[k]) in titles;
    var m :| 0 <= m < |titles| && titles[m] == Lower(vocab[k]);
    NoiseOfTitle(phrase, vocab[k]);
  }

  /** Text whose only whitespace character is the space. */
  predicate SpacesOnly(s: string) {
    forall i :: 0 <= i < |s| && IsSpace(s[i]) ==> s[i] == ' '
  }

  lemma PartsAreSpaceFree(s: string)
    requires SpacesOnly(s)
    ensures forall k, i :: 0 <= k < |SplitOn(s, ' ')| && 0 <= i < |SplitOn(s, ' ')[k]| ==> !IsSpace(SplitOn(s, ' ')[k][i])
  {
    var parts := SplitOn(s, ' ');
    forall k, i | 0 <= k < |parts| && 0 <= i < |parts[k]|
      ensures !IsSpace(parts[k][i])
    {
      SplitOnCharsFromText(s, ' ', k, i);
      assert parts[k][i] != ' ';
    }
  }

  /** Splitting a name and category free of tabs and newlines on spaces
      leaves no whitespace in any entry of the vocabulary. */
  lemma VocabularyIsSpaceFree(appName: string, category: string)
    requires SpacesOnly(appName) && SpacesOnly(category)
    ensures var vocab := NoiseVocabulary(appName, category);
            forall k, i :: 0 <= k < |vocab| && 0 <= i < |vocab[k]| ==> !IsSpace(vocab[k][i])
  {
    var a, b := SplitOn(appName, ' '), SplitOn(category, ' ');
    var vocab := NoiseVocabulary(appName, category);
    PartsAreSpaceFree(appName);
    PartsAreSpaceFree(category);
    forall k, i | 0 <= k < |vocab| && 0 <= i < |vocab[k]|
      ensures !IsSpace(vocab[k][i])
    {
      if k < |a| {
        assert vocab[k] == a[k];
      } else if k < |a| + |b| {
        assert vocab[k] == b[k - |a|];
      } else {
        assert vocab[k] == "app";
      }
    }
  }

  /** For non-empty keywords and a name and category whose only whitespace is
      the space, the script stores the lower-cased form of the first keyword
      that the app's keyword table does not treat as noise. */
  lemma TopKeywordIsFirstNonNoise(appName: string, category: string, keywords: seq<string>)
    requires SpacesOnly(appName) && SpacesOnly(category)
    requires forall i :: 0 <= i < |keywords| ==> |keywords[i]| > 0
    ensures var vocab := NoiseVocabulary(appName, category);
            var r := QueryForTopKeywords(appName, category, keywords);
            && (r.None? <==> forall i :: 0 <= i < |keywords| ==> IsNoise(keywords[i], vocab))
            && (r.Some? ==> exists i :: && 0 <= i < |keywords| && r.value == Lower(keywords[i])
                                        && !IsNoise(keywords[i], vocab)
                                        && forall j :: 0 <= j < i ==> IsNoise(keywords[j], vocab))
  {
    var vocab := NoiseVocabulary(appName, category);
    VocabularyIsSpaceFree(appName, category);
    forall i | 0 <= i < |keywords|
      ensures Overlaps(keywords[i], TitleWords(vocab)) <==> IsNoise(keywords[i], vocab)
    {
      OverlapsIsNoise(keywords[i], vocab);
    }
  }

  /** For one non-empty word, the script's two-way `in` test is `containsWord`. */
  lemma NoiseOfTitle(phrase: string, w: string)
    requires |phrase| > 0 && |w| > 0
    ensures (PyIn(Lower(w), Lower(phrase)) || PyIn(Lower(phrase), Lower(w))) <==> ContainsWord(phrase, w)
  {
  }

  // ---------------------------------------------------------------------
  // App ids
  // ---------------------------------------------------------------------

  /** The pattern `\/id([0-9]+)` starts at `i`. */
  predicate IdAt(s: string, i: int) {
    0 <= i && i + 4 <= |s| && s[i..i + 3] == "/id" && IsDigit(s[i + 3])
  }

  /** Length of the run of digits at the start of `s`. */
  function DigitRun(s: string): (n: nat)
    ensures n <= |s| && AllDigits(s[..n])
    ensures n < |s| ==> !IsDigit(s[n])
  {
    if |s| == 0 || !IsDigit(s[0]) then 0
    else
      var n := 1 + DigitRun(s[1..]);
      assert s[..n] == [s[0]] + s[1..][..n - 1];
      n
  }

  /** The leftmost match at or after `from`, as `re.search` scans. */
  function FirstIdFrom(s: string, from: nat): (r: Option<nat>)
    ensures r.Some? ==> from <= r.value && IdAt(s, r.value) && forall j :: from <= j < r.value ==> !IdAt(s, j)
    ensures r.None? ==> forall j :: from <= j ==> !IdAt(s, j)
    decreases |s| - from
  {
    if from + 4 > |s| then None
    else if IdAt(s, from) then Some(from)
    else FirstIdFrom(s, from + 1)
  }

  const NotFound: string := "not found"

  /** `extract_id(linkstr)`: the digits after the leftmost "/id" that is
      followed by a digit, taken greedily; "not found" when there is none. */
  function ExtractId(linkstr: string): (r: string)
    ensures r == NotFound <==> forall i :: !IdAt(linkstr, i)
    ensures r != NotFound ==>
              && |r| > 0 && AllDigits(r)
              && exists i :: && IdAt(linkstr, i) && (forall j :: 0 <= j < i ==> !IdAt(linkstr, j))
                             && i + 3 + |r| <= |linkstr| && linkstr[i + 3..i + 3 + |r|] == r
                             && (i + 3 + |r| == |linkstr| || !IsDigit(linkstr[i + 3 + |r|]))
  {
    match FirstIdFrom(linkstr, 0)
    case None => NotFound
    case Some(i) =>
      var n := DigitRun(linkstr[i + 3..]);
      var r := linkstr[i + 3..i + 3 + n];
      assert r == linkstr[i + 3..][..n];
      assert r[0] == linkstr[i + 3];
      assert r[0] != NotFound[0];
      r
  }

  /** A digit run stops at the first non-digit. */
  lemma {:induction false} DigitRunOfDigits(d: string, rest: string)
    requires AllDigits(d) && (|rest| == 0 || !IsDigit(rest[0]))
    ensures DigitRun(d + rest) == |d|
    decreases |d|
  {
    if |d| > 0 {
      assert (d + rest)[1..] == d[1..] + rest;
      DigitRunOfDigits(d[1..], rest);
    } else {
      assert d + rest == rest;
    }
  }

  /** The leftmost match is the one with no match before it. */
  lemma FirstIdIsLeftmost(s: string, i: nat)
    requires IdAt(s, i) && forall j :: 0 <= j < i ==> !IdAt(s, j)
    ensures FirstIdFrom(s, 0) == Some(i)
  {
  }

  /** A link whose first slash begins "/id<digits>" yields those digits. */
  lemma ExtractIdOfLink(path: string, id: string, rest: string)
    requires '/' !in path
    requires |id| > 0 && AllDigits(id) && (|rest| == 0 || !IsDigit(rest[0]))
    ensures ExtractId(path + "/id" + id + rest) == id
  {
    var s := path + "/id" + id + rest;
    assert s[|path| + 3..] == id + rest;
    assert IdAt(s, |path|) by {
      assert s[|path|..|path| + 3] == "/id";
    }
    forall j | 0 <= j < |path|
      ensures !IdAt(s, j)
    {
      assert s[j] == path[j];
    }
    FirstIdIsLeftmost(s, |path|);
    DigitRunOfDigits(id, rest);
    assert s[|path| + 3..|path| + 3 + |id|] == id;
  }
}

=== FILE: text.dfy ===
/** Character and string primitives the Swift app and the Python scripts
    rely on: ASCII lower-casing, substring search in Foundation's and in
    Python's flavour, and the two ways of splitting a string. */
module Text {
  import opened Wrappers

  /** ASCII lower-casing of one character. */
  function LowerChar(c: char): char {
    if 'A' <= c <= 'Z' then (c as int + 32) as char else c
  }

  /** `lowercased()` / `str.lower()`, restricted to the ASCII letters. */
  function Lower(s: string): (r: string)
    ensures |r| == |s|
    ensures forall i :: 0 <= i < |s| ==> r[i] == LowerChar(s[i])
  {
    if |s| == 0 then "" else [LowerChar(s[0])] + Lower(s[1..])
  }

  lemma LowerIdempotent(s: string)
    ensures Lower(Lower(s)) == Lower(s)
  {
  }

  predicate IsDigit(c: char) {
    '0' <= c <= '9'
  }

  /** The ASCII whitespace characters: space, \t, \n, \r, \v, \f. Unicode
      whitespace beyond these is not modelled. */
  predicate IsSpace(c: char) {
    c == ' ' || c == '\t' || c == '\n' || c == '\r' || c as int == 11 || c as int == 12
  }

  /** `needle` occurs in `hay` starting at position `i`. */
  predicate OccursAt(hay: string, needle: string, i: int) {
    0 <= i && i + |needle| <= |hay| && hay[i..i + |needle|] == needle
  }

  lemma OccursShift(hay: string, needle: string, k: int)
    requires |hay| > 0 && 0 <= k
    ensures OccursAt(hay[1..], needle, k) <==> OccursAt(hay, needle, k + 1)
  {
    if k + |needle| <= |hay[1..]| {
      assert hay[1..][k..k + |needle|] == hay[k + 1..k + 1 + |needle|];
    }
  }

  /** Foundation's `hay.range(of: needle)`: the first position at which
      `needle` occurs, and nil for an empty needle. */
  function RangeOf(hay: string, needle: string): (r: Option<nat>)
    ensures r.Some? ==> |needle| > 0 && OccursAt(hay, needle, r.value)
    ensures r.Some? ==> forall j :: 0 <= j < r.value ==> !OccursAt(hay, needle, j)
    ensures r.None? ==> |needle| == 0 || forall j :: !OccursAt(hay, needle, j)
    decreases |hay|
  {
    if |needle| == 0 || |hay| < |needle| then None
    else if hay[..|needle|] == needle then Some(0)
    else
      var tail := RangeOf(hay[1..], needle);
      assert !OccursAt(hay, needle, 0);
      forall j | 0 < j
        ensures OccursAt(hay, needle, j) <==> OccursAt(hay[1..], needle, j - 1)
      {
        OccursShift(hay, needle, j - 1);
      }
      match tail
      case None => None
      case Some(k) => Some(k + 1)
  }

  /** Foundation's test `hay.range(of: needle) != nil`. */
  predicate Contains(hay: string, needle: string) {
    RangeOf(hay, needle).Some?
  }

  lemma ContainsIff(hay: string, needle: string)
    ensures Contains(hay, needle) <==> |needle| > 0 && exists i :: OccursAt(hay, needle, i)
  {
  }

  /** Python's `needle in hay`: an empty needle is in every string. */
  predicate PyIn(needle: string, hay: string) {
    |needle| == 0 || Contains(hay, needle)
  }

  lemma PyInIff(needle: string, hay: string)
    ensures PyIn(needle, hay) <==> exists i :: OccursAt(hay, needle, i)
  {
    if |needle| == 0 {
      assert OccursAt(hay, needle, 0);
    }
  }

  /** Inverse of `SplitOn`: the parts glued back with the separator. */
  function Join(parts: seq<string>, sep: char): string {
    if |parts| == 0 then ""
    else if |parts| == 1 then parts[0]
    else parts[0] + [sep] + Join(parts[1..], sep)
  }

  /** Swift's `s.components(separatedBy: " ")` and Python's `s.split(" ")`:
      the pieces between consecutive separators, empty pieces kept, so
      `""` gives `[""]` and a doubled separator gives an empty piece. */
  function SplitOn(s: string, sep: char): (parts: seq<string>)
    ensures |parts| >= 1
    ensures forall k :: 0 <= k < |parts| ==> sep !in parts[k]
    ensures Join(parts, sep) == s
    decreases |s|
  {
    if |s| == 0 then [""]
    else
      var rest := SplitOn(s[1..], sep);
      if s[0] == sep then
        assert ([""] + rest)[1..] == rest;
        [""] + rest
      else
        var parts := [[s[0]] + rest[0]] + rest[1..];
        assert parts[1..] == rest[1..];
        assert Join(parts, sep) == s by {
          if |rest| > 1 {
            assert Join(rest, sep) == rest[0] + [sep] + Join(rest[1..], sep);
            assert Join(parts, sep) == [s[0]] + rest[0] + [sep] + Join(rest[1..], sep);
          }
          assert s == [s[0]] + s[1..];
        }
        parts
  }

  /** Length of the longest prefix of `s` free of whitespace. */
  function WordLength(s: string): (n: nat)
    ensures n <= |s|
    ensures forall i :: 0 <= i < n ==> !IsSpace(s[i])
    ensures n < |s| ==> IsSpace(s[n])
  {
    if |s| == 0 || IsSpace(s[0]) then 0 else 1 + WordLength(s[1..])
  }

  /** All characters of `s` that are not whitespace, in order. */
  function RemoveSpaces(s: string): string {
    if |s| == 0 then "" else (if IsSpace(s[0]) then "" else [s[0]]) + RemoveSpaces(s[1..])
  }

  function Concat(ws: seq<string>): string {
    if |ws| == 0 then "" else ws[0] + Concat(ws[1..])
  }

  lemma {:induction false} RemoveSpacesOfWord(s: string, n: nat)
    requires n <= |s|
    requires forall i :: 0 <= i < n ==> !IsSpace(s[i])
    ensures RemoveSpaces(s) == s[..n] + RemoveSpaces(s[n..])
    decreases n
  {
    if n > 0 {
      RemoveSpacesOfWord(s[1..], n - 1);
      assert s[1..][n - 1..] == s[n..];
      assert s[..n] == [s[0]] + s[1..][..n - 1];
    }
  }

  /** Python's `s.split()`: the maximal runs of non-whitespace characters. */
  function Words(s: string): (ws: seq<string>)
    ensures forall k :: 0 <= k < |ws| ==> |ws[k]| > 0
    ensures forall k, i :: 0 <= k < |ws| && 0 <= i < |ws[k]| ==> !IsSpace(ws[k][i])
    ensures Concat(ws) == RemoveSpaces(s)
    decreases |s|
  {
    if |s| == 0 then []
    else if IsSpace(s[0]) then Words(s[1..])
    else
      var n := WordLength(s);
      var tail := Words(s[n..]);
      WordThenWords(s, n, tail);
      [s[..n]] + tail
  }

  /** The word at the front of `s` followed by the words of the rest keeps
      the three properties `Words` promises. */
  lemma WordThenWords(s: string, n: nat, tail: seq<string>)
    requires 0 < n <= |s| && forall i :: 0 <= i < n ==> !IsSpace(s[i])
    requires forall k :: 0 <= k < |tail| ==> |tail[k]| > 0
    requires forall k, i :: 0 <= k < |tail| && 0 <= i < |tail[k]| ==> !IsSpace(tail[k][i])
    requires Concat(tail) == RemoveSpaces(s[n..])
    ensures forall k :: 0 <= k < |[s[..n]] + tail| ==> |([s[..n]] + tail)[k]| > 0
    ensures forall k, i :: 0 <= k < |[s[..n]] + tail| && 0 <= i < |([s[..n]] + tail)[k]| ==> !IsSpace(([s[..n]] + tail)[k][i])
    ensures Concat([s[..n]] + tail) == RemoveSpaces(s)
  {
    var ws := [s[..n]] + tail;
    assert ws[1..] == tail;
    RemoveSpacesOfWord(s, n);
  }

  /** Python's `s.lstrip()`: `s` without its leading whitespace. */
  function LStrip(s: string): (r: string)
    ensures |r| <= |s| && r == s[|s| - |r|..]
    ensures |r| > 0 ==> !IsSpace(r[0])
    ensures forall i :: 0 <= i < |s| - |r| ==> IsSpace(s[i])
  {
    if |s| > 0 && IsSpace(s[0]) then
      var r := LStrip(s[1..]);
      assert forall i :: 1 <= i < |s| - |r| ==> s[i] == s[1..][i - 1];
      r
    else s
  }

  /** Stripping leading whitespace never changes the words. */
  lemma {:induction false} WordsOfLStrip(s: string)
    ensures Words(LStrip(s)) == Words(s)
    decreases |s|
  {
    if |s| > 0 && IsSpace(s[0]) {
      WordsOfLStrip(s[1..]);
    }
  }

  /** Text without the separator is a single piece. */
  lemma {:induction false} SplitOnWithoutSep(s: string, sep: char)
    requires sep !in s
    ensures SplitOn(s, sep) == [s]
    decreases |s|
  {
    if |s| > 0 {
      SplitOnWithoutSep(s[1..], sep);
      assert [s[0]] + s[1..] == s;
    }
  }

  /** Splitting peels off the text before the first separator. */
  lemma {:induction false} SplitOnFirst(a: string, sep: char, rest: string)
    requires sep !in a
    ensures SplitOn(a + [sep] + rest, sep) == [a] + SplitOn(rest, sep)
    decreases |a|
  {
    var s := a + [sep] + rest;
    if |a| == 0 {
      assert s[1..] == rest;
    } else {
      assert s[1..] == a[1..] + [sep] + rest;
      SplitOnFirst(a[1..], sep, rest);
      assert [a[0]] + a[1..] == a;
    }
  }

  /** A word followed by whitespace or the end of the text is read whole. */
  lemma {:induction false} WordLengthOfWord(w: string, rest: string)
    requires forall i :: 0 <= i < |w| ==> !IsSpace(w[i])
    requires |rest| == 0 || IsSpace(rest[0])
    ensures WordLength(w + rest) == |w|
    decreases |w|
  {
    if |w| > 0 {
      assert (w + rest)[1..] == w[1..] + rest;
      WordLengthOfWord(w[1..], rest);
    } else {
      assert w + rest == rest;
    }
  }

  /** `split()` of a word followed by whitespace (or nothing) starts with
      that word. */
  lemma WordsOfWordThen(w: string, rest: string)
    requires |w| > 0 && forall i :: 0 <= i < |w| ==> !IsSpace(w[i])
    requires |rest| == 0 || IsSpace(rest[0])
    ensures Words(w + rest) == [w] + Words(rest)
  {
    var s := w + rest;
    WordLengthOfWord(w, rest);
    assert s[..|w|] == w;
    assert s[|w|..] == rest;
  }

  /** `split()` of a single word. */
  lemma WordsOfWord(w: string)
    requires |w| > 0 && forall i :: 0 <= i < |w| ==> !IsSpace(w[i])
    ensures Words(w) == [w]
  {
    WordLengthOfWord(w, "");
    assert w + "" == w;
    assert w[..|w|] == w;
    assert w[|w|..] == [];
  }

  /** A character of the needle that the haystack lacks rules out an
      occurrence. */
  lemma NotInWhenCharMissing(needle: string, hay: string, k: nat)
    requires k < |needle| && needle[k] !in hay
    ensures !PyIn(needle, hay)
  {
    PyInIff(needle, hay);
  }

  lemma InWhenOccurs(needle: string, hay: string, i: nat)
    requires i + |needle| <= |hay| && hay[i..i + |needle|] == needle
    ensures PyIn(needle, hay)
  {
    PyInIff(needle, hay);
    assert OccursAt(hay, needle, i);
  }

  /** Leading whitespace contributes no words. */
  lemma {:induction false} WordsAfterSpaces(pre: string, s: string)
    requires forall i :: 0 <= i < |pre| ==> IsSpace(pre[i])
    ensures Words(pre + s) == Words(s)
    decreases |pre|
  {
    if |pre| > 0 {
      assert (pre + s)[1..] == pre[1..] + s;
      WordsAfterSpaces(pre[1..], s);
    } else {
      assert pre + s == s;
    }
  }

  /** Splitting undoes joining when no part holds the separator. */
  lemma {:induction false} SplitOnJoin(parts: seq<string>, sep: char)
    requires |parts| >= 1 && forall k :: 0 <= k < |parts| ==> sep !in parts[k]
    ensures SplitOn(Join(parts, sep), sep) == parts
    decreases |parts|
  {
    if |parts| == 1 {
      SplitOnWithoutSep(parts[0], sep);
    } else {
      SplitOnJoin(parts[1..], sep);
      SplitOnFirst(parts[0], sep, Join(parts[1..], sep));
      assert [parts[0]] + parts[1..] == parts;
    }
  }

  /** An occurrence inside a slice is an occurrence in the whole text. */
  lemma OccursThroughSlice(hay: string, piece: string, off: nat, needle: string, i: int)
    requires off + |piece| <= |hay| && hay[off..off + |piece|] == piece
    requires OccursAt(piece, needle, i)
    ensures OccursAt(hay, needle, off + i)
  {
    forall j | 0 <= j < |needle|
      ensures hay[off + i + j] == needle[j]
    {
      assert hay[off..off + |piece|][i + j] == hay[off + i + j];
      assert piece[i..i + |needle|][j] == piece[i + j];
    }
  }

  /** A slice past the end of `a` is a slice of `b`. */
  lemma SliceOfAppend(a: string, b: string, off: nat, len: nat)
    requires off + len <= |b|
    ensures (a + b)[|a| + off..|a| + off + len] == b[off..off + len]
  {
  }

  /** Where the `k`-th part sits inside the joined text. */
  lemma {:induction false} PartInsideJoin(parts: seq<string>, k: nat, sep: char)
    requires k < |parts|
    ensures var off := if k == 0 then 0 else |Join(parts[..k], sep)| + 1;
            off + |parts[k]| <= |Join(parts, sep)| &&
            Join(parts, sep)[off..off + |parts[k]|] == parts[k]
    decreases |parts|
  {
    if |parts| > 1 {
      var head := parts[0] + [sep];
      assert Join(parts, sep) == head + Join(parts[1..], sep);
      if k > 0 {
        PartInsideJoin(parts[1..], k - 1, sep);
        var inner := if k - 1 == 0 then 0 else |Join(parts[1..][..k - 1], sep)| + 1;
        assert parts[..k] == [parts[0]] + parts[1..][..k - 1];
        assert |Join(parts[..k], sep)| + 1 == |head| + inner by {
          if k > 1 {
            assert Join(parts[..k], sep) == parts[0] + [sep] + Join(parts[1..][..k - 1], sep);
          } else {
            assert Join(parts[..k], sep) == parts[0];
          }
        }
        assert parts[1..][k - 1] == parts[k];
        SliceOfAppend(head, Join(parts[1..], sep), inner, |parts[k]|);
      } else {
        assert Join(parts, sep)[..|parts[0]|] == parts[0];
      }
    }
  }

  /** Every character of a part is a character of the split text. */
  lemma SplitOnCharsFromText(s: string, sep: char, k: nat, i: nat)
    requires k < |SplitOn(s, sep)| && i < |SplitOn(s, sep)[k]|
    ensures SplitOn(s, sep)[k][i] in s
  {
    var parts := SplitOn(s, sep);
    PartInsideJoin(parts, k, sep);
    var off := if k == 0 then 0 else |Join(parts[..k], sep)| + 1;
    assert s[off..off + |parts[k]|][i] == s[off + i];
  }
}

=== FILE: wrappers.dfy ===
/** Small failure-carrying datatypes shared by the whole model. */
module Wrappers {

  /** Swift's optional / Python's None. */
  datatype Option<+T> = None | Some(value: T) {

    /** `guard let` / `?`: a nil stops the enclosing computation. */
    predicate IsFailure() {
      None?
    }

    function PropagateFailure<U>(): Option<U>
      requires None?
    {
      None
    }

    function Extract(): T
      requires Some?
    {
      value
    }
  }

  /** How a Swift function ends: it returns a value, or it stops the
      process with a runtime trap (an out-of-range `remove(at:)`, a
      force-unwrapped nil). */
  datatype Outcome<+T> = Returned(value: T) | Trapped

  /** One invocation of a completion handler: `success` or `failure`. */
  datatype Callback<+T, +E> = Success(value: T) | Failure(error: E)

  /** Python's outcome of a call that may raise `ValueError`. */
  datatype Raised<+T> = Ok(value: T) | ValueError {

    /** An exception propagates out of the enclosing computation. */
    predicate IsFailure() {
      ValueError?
    }

    function PropagateFailure<U>(): Raised<U>
      requires ValueError?
    {
      ValueError
    }

    function Extract(): T
      requires Ok?
    {
      value
    }
  }

  /** Applies `f` to each element. */
  function Map<A, B>(xs: seq<A>, f: A -> B): (ys: seq<B>)
    ensures |ys| == |xs| && forall i :: 0 <= i < |xs| ==> ys[i] == f(xs[i])
  {
    seq(|xs|, i requires 0 <= i < |xs| => f(xs[i]))
  }

  /** Mapping one more element of a prefix appends its image. */
  lemma MapSnoc<A, B>(xs: seq<A>, i: nat, f: A -> B)
    requires i < |xs|
    ensures Map(xs[..i + 1], f) == Map(xs[..i], f) + [f(xs[i])]
  {
    var l, r := Map(xs[..i + 1], f), Map(xs[..i], f) + [f(xs[i])];
    forall j | 0 <= j < |l|
      ensures l[j] == r[j]
    {
      if j < i {
        assert xs[..i + 1][j] == xs[..i][j];
      }
    }
  }

  /** The index of the last element satisfying `p`, if any. */
  function LastWhere<A>(xs: seq<A>, p: A -> bool): (k: Option<nat>)
    ensures k.Some? ==> k.value < |xs| && p(xs[k.value]) && forall j :: k.value < j < |xs| ==> !p(xs[j])
    ensures k.None? ==> forall j :: 0 <= j < |xs| ==> !p(xs[j])
  {
    if |xs| == 0 then None
    else
      assert forall j :: 1 <= j < |xs| ==> xs[j] == xs[1..][j - 1];
      match LastWhere(xs[1..], p)
      case Some(k) => Some(k + 1)
      case None => if p(xs[0]) then Some(0) else None
  }

  /** Applies `f` to each element and keeps the values of the results that
      are present, in order. */
  function MapPresent<A, B>(xs: seq<A>, f: A -> Option<B>): seq<B> {
    if |xs| == 0 then []
    else (if f(xs[0]).Some? then [f(xs[0]).value] else []) + MapPresent(xs[1..], f)
  }

  lemma {:induction false} MapPresentAppend<A, B>(a: seq<A>, b: seq<A>, f: A -> Option<B>)
    ensures MapPresent(a + b, f) == MapPresent(a, f) + MapPresent(b, f)
    decreases |a|
  {
    if |a| > 0 {
      MapPresentAppend(a[1..], b, f);
      assert (a + b)[1..] == a[1..] + b;
      assert (a + b)[0] == a[0];
      var head := if f(a[0]).Some? then [f(a[0]).value] else [];
      assert head + (MapPresent(a[1..], f) + MapPresent(b, f)) == (head + MapPresent(a[1..], f)) + MapPresent(b, f);
    } else {
      assert a + b == b;
    }
  }

  lemma {:induction false} MapPresentMembers<A, B>(xs: seq<A>, f: A -> Option<B>, y: B)
    ensures |MapPresent(xs, f)| <= |xs|
    ensures y in MapPresent(xs, f) <==> exists i :: 0 <= i < |xs| && f(xs[i]) == Some(y)
    decreases |xs|
  {
    if |xs| > 0 {
      MapPresentMembers(xs[1..], f, y);
      if exists i :: 0 <= i < |xs| && f(xs[i]) == Some(y) {
        var i :| 0 <= i < |xs| && f(xs[i]) == Some(y);
        if i > 0 {
          assert xs[1..][i - 1] == xs[i];
        }
      }
      if exists i :: 0 <= i < |xs| - 1 && f(xs[1..][i]) == Some(y) {
        var i :| 0 <= i < |xs| - 1 && f(xs[1..][i]) == Some(y);
        assert xs[i + 1] == xs[1..][i];
      }
    }
  }
}
